=== FILE: README.md ===
# Sentinel core, modelled in Dafny

Sentinel is a Selenium-based test-automation framework written in Java. This
project models three pieces of its logic that do not depend on a live
browser, and proves properties of the model.

- **`sentinel.elements.Table`** is a state machine over a page table. It
  caches header and row text, lazily fetches the `<th>`/`<tr>` element lists,
  builds a column map, and keeps a page-number snapshot map. Queries on top
  check column existence, "every cell contains", and substring-based
  uniqueness over one column or over row keys concatenated from several
  columns. The browser is replaced by a `Dom` value: the texts
  `findElements` would hand back. Each Java method that can throw is a
  function from the table state to a `Step`, which holds the new state plus
  the return value or the exception thrown. The four that cannot throw
  (`getOrCreateHeadersElements`, `getOrCreateRowElements`,
  `tableHeadersExist`, `getNumberOfRows`) return the new state paired with
  the value (modules `TableModel`, `TableQueries`).
- **`sentinel.utils.WebDriverFactory`** is the browser/OS decision table
  (module `WebDriverFactory`). It normalises the two names (whitespace
  removed, lower-cased, aliases applied), selects a driver path or a named
  error, builds the Sauce Labs hub URL, and swallows selection errors. The
  `instance` flag and the held driver are the factory's state, which
  `getWebDriver` reads to decide whether to build a driver at all. The
  configuration properties are parameters.
- **`sentinel.pages.PageManager`** holds window-handle session state
  (module `PageManager`): `page` and `parentHandle` as `Option`s. It covers
  the guards of `getPage`, `openPage`, `switchToNewWindow`,
  `closeChildWindow` and `getCurrentUrl`, and the rule that picks the new
  window. The driver's answers (current handle, open handles in iteration
  order, the reported URL, whether a switch succeeded) are parameters.

Two helper modules support these:

- `JavaStrings` models `String.contains`, `split` on a literal delimiter,
  `replaceAll("\\s+", "")` and `toLowerCase`. `contains` and the search
  behind `split` are proved against a position-based definition of an
  occurrence. `split` is proved against joining, in both directions for
  names free of the delimiter. Whitespace removal is proved to distribute
  over concatenation, and lower-casing is stated character by character.
- `Wrappers` provides `Option` (Java `null`) and `Result` (a thrown
  exception).

Where the code's behaviour differs from its documented intent, the model
follows the code:

- `reset` empties the fetched element lists in place instead of setting them
  back to `null`. Nothing is fetched again after a reset. Once the rows were
  fetched, a reset followed by `getOrCreateRows` throws.
- A snapshot taken by `storeTable` is the live `rows` list, not a copy. A
  reset therefore empties the snapshot too. `compareWithStoredTable`
  compares by reference, so its answer never depends on cell text, and in
  every reachable state it never reports a match.
- `verifyColumnCellsAreUnique` checks existence by substring but looks up the
  column by exact key. A name that is only part of a header dereferences
  `null`.
- `verifyRowCellsAreUnique` keys each row on every header position whose
  text equals a requested name, not just the first.
- `tableHeadersExist` is documented to answer false for a table without
  `<th>` cells. It compares the fetched list with `null`, which it never is,
  so it always answers true.

## Model

| member | source | states |
|---|---|---|
| JavaStrings.ContainsIff | src/main/java/sentinel/elements/Table.java:358 | The recursive `contains` holds exactly when the needle occurs at some position of the haystack. |
| JavaStrings.IndexOfSpec | src/main/java/sentinel/elements/Table.java:400 | `IndexOf` finds the first occurrence of the delimiter: it occurs there and at no earlier position. None iff it occurs nowhere. |
| JavaStrings.SplitAll | src/main/java/sentinel/elements/Table.java:400 | Splitting always yields at least one piece. |
| JavaStrings.SplitPiecesAvoidDelimiter | src/main/java/sentinel/elements/Table.java:400 | No piece of the split contains the delimiter. |
| JavaStrings.SplitJoinRoundTrip | src/main/java/sentinel/elements/Table.java:400 | Joining the split pieces with the delimiter gives back the original string. |
| JavaStrings.FirstDelimiterAfterName | src/main/java/sentinel/elements/Table.java:400 | After a name free of ", ", the first ", " starts right where the name ends. |
| JavaStrings.SplitJoinedNames | src/main/java/sentinel/elements/Table.java:400 | Splitting names joined with ", " gives the names back when no name contains ", ". |
| JavaStrings.JavaSplitJoinedNames | src/main/java/sentinel/elements/Table.java:400 | `split(", ")` of joined names gives the names back, when no name contains ", " and a list of several does not end in an empty name. |
| JavaStrings.DropTrailingEmpty | src/main/java/sentinel/elements/Table.java:400 | Result is a prefix, does not end in an empty string, and only empty strings were dropped. |
| JavaStrings.JavaSplit | src/main/java/sentinel/elements/Table.java:400 | `split(", ")`: [s] when the delimiter never occurs. Otherwise a prefix of the pieces with no trailing empty piece, and every piece dropped is empty. No piece contains the delimiter. |
| JavaStrings.StripWhitespace | src/main/java/sentinel/utils/WebDriverFactory.java:162 | No `\s` character remains, every remaining character comes from the input, and whitespace-free input is unchanged. |
| JavaStrings.StripWhitespaceChar | src/main/java/sentinel/utils/WebDriverFactory.java:162 | A single character is kept iff it is not whitespace. |
| JavaStrings.StripWhitespaceAppend | src/main/java/sentinel/utils/WebDriverFactory.java:162 | Stripping distributes over concatenation, so the non-whitespace characters are kept in order. |
| JavaStrings.ToLowerAscii | src/main/java/sentinel/utils/WebDriverFactory.java:162 | Same length. Each upper-case letter becomes its lower-case counterpart, and every other character is unchanged. |
| JavaStrings.NormalizeIdempotent | src/main/java/sentinel/utils/WebDriverFactory.java:162 | Stripping whitespace then lower-casing is idempotent. |
| JavaStrings.NormalizeDropsWhitespace | src/main/java/sentinel/utils/WebDriverFactory.java:162 | A whitespace character anywhere in a string does not change its normal form. |
| TableModel.Reset | src/main/java/sentinel/elements/Table.java:52-68 | Headers, rows and columns are emptied. A fetched element list becomes empty but stays fetched; an unfetched one stays null. The set of stored page numbers is unchanged; their contents, which alias the live rows, are emptied. Keeps the reachable-state invariant. |
| TableModel.GetOrCreateHeadersElements | src/main/java/sentinel/elements/Table.java:108-117 | Queries the `<th>` list only while the cache is null; afterwards always returns the cached list. No other field changes. Keeps the reachable-state invariant. |
| TableModel.TableHeadersExist | src/main/java/sentinel/elements/Table.java:127-129 | Always true, even for a table without `<th>` cells, and leaves the header list fetched. Nothing else in the state changes. Keeps the reachable-state invariant. |
| TableModel.GetOrCreateRowElements | src/main/java/sentinel/elements/Table.java:137-142 | Queries the `<tr>` list only while the cache is null. No other field changes. Keeps the reachable-state invariant. |
| TableModel.GetOrCreateRows | src/main/java/sentinel/elements/Table.java:151-166 | Memoised while rows is non-empty. Otherwise it fails iff the cached list is empty. On success the rows are that list minus its first element, and the cache is shrunk to the same list. On failure only the cache is set, to the empty list. Headers, columns and snapshots are unchanged. Keeps the reachable-state invariant. |
| TableModel.GetOrCreateHeaders | src/main/java/sentinel/elements/Table.java:78-98 | Memoised while non-empty. Otherwise the `<th>` texts. If there are none, it succeeds iff rows are held or the page has at least two `<tr>`, and returns the first data row, which stays in rows. Rows and the row cache are unchanged unless they had to be fetched, and the header element cache holds the page's `<th>` texts. A row fetch on the no-`<th>` path leaves the row cache equal to the rows. Fails only with index-out-of-bounds, and then both element caches hold empty lists. Keeps the reachable-state invariant. |
| TableModel.HeadersIdempotent | src/main/java/sentinel/elements/Table.java:78-98 | A successful call leaves the table settled. From a settled table the call returns the same headers and changes nothing. |
| TableModel.RowsKeepHeadersSettled | src/main/java/sentinel/elements/Table.java:151-166 | Computing rows keeps a settled header state settled. |
| TableModel.ThlessHeadersReuseFirstDataRow | src/main/java/sentinel/elements/Table.java:90-97 | Without `<th>` cells, the first `<tr>` is dropped and the second becomes the headers while staying the first data row. |
| TableModel.RediscoveryAfterResetFails | src/main/java/sentinel/elements/Table.java:152-157 | After any fetch of the rows, a reset followed by `getOrCreateRows` throws and leaves the state as the reset made it. |
| TableModel.SingleRowTableFailsOnSecondCall | src/main/java/sentinel/elements/Table.java:151-166 | With a single `<tr>`, the first call yields no rows and the second throws. |
| TableModel.GetNumberOfRows | src/main/java/sentinel/elements/Table.java:175-177 | One less than the size of the cached `<tr>` list (re-queried only while null). Nothing else in the state changes. Keeps the reachable-state invariant. |
| TableModel.NumberOfRowsUndercountsAfterRows | src/main/java/sentinel/elements/Table.java:175-177 | On a fresh table the count is the number of data rows. After `getOrCreateRows` it is one fewer than the rows held. |
| TableModel.GetNumberOfColumns | src/main/java/sentinel/elements/Table.java:210-212 | The number of headers, failing exactly when `getOrCreateHeaders` fails. Keeps the reachable-state invariant. |
| TableModel.CommonWidth | src/main/java/sentinel/elements/Table.java:193-197 | The number of header indexes the column loop gets through before a row runs out of cells. |
| TableModel.ColumnsPut | src/main/java/sentinel/elements/Table.java:190-196 | Putting header k-1's column extends the map for k-1 headers to the map for k: keys exactly the first k headers, one entry per row, and each header mapped to its last occurrence's column. |
| TableModel.ColumnsUpTo | src/main/java/sentinel/elements/Table.java:190-196 | After the first k headers are put, the keys are exactly those headers. Every column has one entry per row, and a header maps to the column of its last occurrence. |
| TableModel.GetOrCreateColumns | src/main/java/sentinel/elements/Table.java:186-201 | Computes rows, then headers: a failure of either is index-out-of-bounds in the state it left, and otherwise the state is theirs plus the new column map. On success the keys are exactly those headers, each column has one entry per row, and a duplicated header gets the later index's column. Fails only with index-out-of-bounds. Keeps the reachable-state invariant. |
| TableModel.ColumnsFailOnShortRow | src/main/java/sentinel/elements/Table.java:186-201 | Once rows and headers succeed, building columns fails iff some row has fewer cells than there are headers. |
| TableModel.ColumnsKeepSettledHeaders | src/main/java/sentinel/elements/Table.java:186-201 | Building the columns from a settled table leaves the headers as they are. |
| TableModel.StoreTable | src/main/java/sentinel/elements/Table.java:235-238 | Succeeds iff the rows were never fetched and the page has a `<tr>`. It resets first: headers and columns are empty afterwards and a fetched `<th>` list is empty. On success the rows and the row cache are the page's data rows, the page number is added, and its snapshot is those rows. On failure the state is the reset one with an empty row cache. Keeps the reachable-state invariant. |
| TableModel.StoreTableDefault | src/main/java/sentinel/elements/Table.java:246-248 | Stores under page 1, with the same success condition: the stored pages gain 1, and page 1 holds the page's rows after the first `<tr>`, aliased with the live row list. It resets first, with the same post-state as for any page. Failure leaves the stored pages alone. Keeps the reachable-state invariant. |
| TableModel.CompareWithStoredTable | src/main/java/sentinel/elements/Table.java:259-262 | It resets first: headers and columns are empty afterwards and a fetched `<th>` list is empty. On success the rows and the row cache are the page's data rows, and the answer is whether the page number was stored; cell text never matters. On failure the state is the reset one with an empty row cache. The set of stored page numbers is unchanged. Keeps the reachable-state invariant. |
| TableModel.StoreTableRederivesHeaders | src/main/java/sentinel/elements/Table.java:235-238 | After a store on a table whose `<th>` list was fetched, the headers are the page's first data row. |
| TableModel.ResetEmptiesSnapshots | src/main/java/sentinel/elements/Table.java:237 | A stored snapshot aliases the live rows, so it reads as empty after a reset. |
| TableModel.CompareNeverMatches | src/main/java/sentinel/elements/Table.java:259-262 | In every reachable state the comparison never answers true. |
| TableModel.StoreThenCompareFails | src/main/java/sentinel/elements/Table.java:235-262 | Storing a page and then comparing against it throws, whatever the page shows. |
| TableQueries.AnyContains | src/main/java/sentinel/elements/Table.java:383-390 | True iff some element contains the needle. |
| TableQueries.AllContain | src/main/java/sentinel/elements/Table.java:320-333 | True iff every element contains the needle (vacuously for none). |
| TableQueries.ColumnCellsUnique | src/main/java/sentinel/elements/Table.java:354-373 | The nested counting loop answers true iff no cell is a substring of a cell at another position. |
| TableQueries.CellsValue | src/main/java/sentinel/elements/Table.java:455-461 | A key exists iff every index is within the row. |
| TableQueries.CellsValueAppend | src/main/java/sentinel/elements/Table.java:457-459 | The key over concatenated index lists is the concatenation of the two keys. |
| TableQueries.FirstUndefined | src/main/java/sentinel/elements/Table.java:428-434 | The first row whose key cannot be built; every earlier key is defined. |
| TableQueries.ScanRowKeys | src/main/java/sentinel/elements/Table.java:428-445 | The nested scan matches the closed form. If every key is defined: containment-uniqueness of the keys. Otherwise false when a second key containing the first key appears before the first undefined key, and index-out-of-bounds if not. |
| TableQueries.Positions | src/main/java/sentinel/elements/Table.java:422-426 | Exactly the header positions equal to the name, ascending. |
| TableQueries.VerifyColumnExists | src/main/java/sentinel/elements/Table.java:383-390 | True iff some header contains the name as a substring. Fails exactly when `getOrCreateHeaders` fails. Keeps the reachable-state invariant. |
| TableQueries.VerifyColumnCellsContain | src/main/java/sentinel/elements/Table.java:313-334 | Index-out-of-bounds iff computing headers or columns fails. Otherwise illegal-argument iff the exact header is not a column key, and true iff every cell of that column contains the text. The state is the one left by computing headers and then columns. Keeps the reachable-state invariant. |
| TableQueries.CellsContainNeedsExactHeader | src/main/java/sentinel/elements/Table.java:315-320 | With no column map built yet, the call succeeds iff the header text equals one of the headers exactly. |
| TableQueries.VerifyColumnCellsAreUnique | src/main/java/sentinel/elements/Table.java:343-374 | Illegal-argument iff no header contains the name or the exact column is empty. Null dereference iff the name passes the existence check but is not a column key. Index-out-of-bounds iff headers or columns fail. Otherwise containment-uniqueness of the column. The state is the one left by the existence check and, when it answered true, computing columns. Keeps the reachable-state invariant. |
| TableQueries.PartialHeaderNameDereferencesNull | src/main/java/sentinel/elements/Table.java:344-351 | With no column map built yet, the null dereference happens iff some header contains the name but none equals it. |
| TableQueries.ExactPositions | src/main/java/sentinel/elements/Table.java:416-427 | Reference definition of the resolved indexes: only positions whose header equals a name, and every such position. |
| TableQueries.ExactPositionsAppend | src/main/java/sentinel/elements/Table.java:416-427 | The positions for a list of names are those for a first part followed by those for the rest, so name order is kept. |
| TableQueries.ExactPositionsSingle | src/main/java/sentinel/elements/Table.java:422-426 | For one name, the positions are its exact matches in ascending order. |
| TableQueries.ExactPositionsFollowNameOrder | src/main/java/sentinel/elements/Table.java:416-427 | Headers ["A", "B"] with names ["B", "A"] resolve to [1, 0]. |
| TableQueries.FirstMissing | src/main/java/sentinel/elements/Table.java:416-421 | Reference definition of the failing name: none iff every name is contained in some header. Otherwise the first name that no header contains. |
| TableQueries.ResolveIndexesClosedForm | src/main/java/sentinel/elements/Table.java:416-427 | With the headers settled, the resolution loop changes nothing. It throws no-such-column for the first missing name, or appends every exact-match position of every name in name order. |
| TableQueries.ResolveThenScan | src/main/java/sentinel/elements/Table.java:416-446 | With the headers settled, no-such-column for the first missing name, otherwise the row-key scan over keys built from the exact-match positions; the state is unchanged. |
| TableQueries.VerifyRowCellsAreUnique | src/main/java/sentinel/elements/Table.java:411-446 | Once headers and rows succeed: no-such-column for the first name that no header contains. Otherwise the row-key scan over keys built from every exact-match position in name order. A failure in headers or rows is index-out-of-bounds. Keeps the reachable-state invariant. |
| TableQueries.RowCellsUniqueWhenKeysDefined | src/main/java/sentinel/elements/Table.java:428-445 | On success, when every row is long enough, the answer is containment-uniqueness of the row keys. |
| TableQueries.VerifyRowCellsAreUniqueDelimited | src/main/java/sentinel/elements/Table.java:399-402 | Checks the pieces of `split(", ")` exactly as the array version checks names: index-out-of-bounds when headers or rows fail, then no-such-column for the first piece no header contains, otherwise the row-key scan over the pieces' exact-match positions. A reported missing name never contains ", ". Keeps the reachable-state invariant. |
| TableQueries.DelimitedNamesAsArray | src/main/java/sentinel/elements/Table.java:399-402 | Names joined with ", " are checked exactly as the array of those names, when no name contains ", " and a list of several does not end in an empty name. |
| TableQueries.SubstringCountsAsDuplicate | src/main/java/sentinel/elements/Table.java:358 | ["1", "11", "2"] is not unique, because "1" is a substring of "11". |
| TableQueries.ConcatenatedKeysCollide | src/main/java/sentinel/elements/Table.java:458 | Rows ("Jo", "eLee") and ("Joe", "Lee") build the same key. |
| WebDriverFactory.NormalizeBrowser | src/main/java/sentinel/utils/WebDriverFactory.java:162-164 | Whitespace-free and lower-case, with "ie" mapped to "internetexplorer" and everything else passed through. |
| WebDriverFactory.NormalizeOs | src/main/java/sentinel/utils/WebDriverFactory.java:166-170 | "macintosh"/"osx" become "mac" and "win" becomes "windows"; anything else passes through normalised. |
| WebDriverFactory.NormalizationIdempotent | src/main/java/sentinel/utils/WebDriverFactory.java:162-170 | Normalising a normalised browser or OS name changes nothing. |
| WebDriverFactory.SelectDriver | src/main/java/sentinel/utils/WebDriverFactory.java:172-245 | A local driver iff the pair is supported: chrome/firefox on linux/mac/windows, IE on windows, safari on mac. The path is `drivers/<os>/<executable>`, or with backslashes and `.exe` on windows. Safari has no path. Invalid-browser iff the browser is unknown. Invalid-OS iff a known browser has an unknown OS. Incompatible-OS iff IE/safari has a known but wrong OS. |
| WebDriverFactory.UnixPathsSpelt | src/main/java/sentinel/utils/WebDriverFactory.java:179-203 | The bundled layout gives the chromedriver and geckodriver paths the switch uses on linux and mac. |
| WebDriverFactory.WindowsPathsSpelt | src/main/java/sentinel/utils/WebDriverFactory.java:186-221 | The bundled layout gives the chromedriver, geckodriver and IEDriverServer paths the switch uses on windows. |
| WebDriverFactory.SauceLabsUrl | src/main/java/sentinel/utils/WebDriverFactory.java:136 | The URL is the scheme, then the credentials, then the fixed hub suffix. |
| WebDriverFactory.HubCredentialsSound | src/main/java/sentinel/utils/WebDriverFactory.java:136 | Any credential read back out of a URL rebuilds that URL. |
| WebDriverFactory.SauceLabsUrlRoundTrip | src/main/java/sentinel/utils/WebDriverFactory.java:136 | The credential is recovered from its hub URL, so distinct credentials give distinct URLs. |
| WebDriverFactory.InstantiateWebDriverFor | src/main/java/sentinel/utils/WebDriverFactory.java:134-252 | With credentials, a remote driver on the hub URL. Otherwise null browser/OS dereference. A failed selection returns the previously held driver. |
| WebDriverFactory.InstantiateWebDriver | src/main/java/sentinel/utils/WebDriverFactory.java:84-98 | Without credentials, a missing browser is reported before a missing OS. Otherwise it equals the two-argument version, so credentials give the remote Sauce Labs hub driver. Only missing configuration escapes. A new local driver implies a supported pair. |
| WebDriverFactory.SelectionErrorsAreSwallowed | src/main/java/sentinel/utils/WebDriverFactory.java:247-252 | An unsupported or misspelled pair returns the previously held driver instead of an error. |
| WebDriverFactory.GetWebDriver | src/main/java/sentinel/utils/WebDriverFactory.java:296-301 | Builds a driver only while the `instance` flag is unset; once it is set, returns the held driver unchanged. Fails only with missing configuration, which leaves the flag unset. |
| WebDriverFactory.DriverDecidedOnce | src/main/java/sentinel/utils/WebDriverFactory.java:125-129 | After a successful call, later calls return the same driver whatever the configuration says. |
| WebDriverFactory.UnsupportedFirstCallKeepsNull | src/main/java/sentinel/utils/WebDriverFactory.java:125-129 | A first call with an unsupported pair sets the flag with no driver, so every later call returns null. |
| WebDriverFactory.GetWebDriverAndHandleErrors | src/main/java/sentinel/utils/WebDriverFactory.java:260-284 | Returns what `getWebDriver` returns, or null with the state unchanged when configuration is missing. |
| WebDriverFactory.AliasesSelectTheSameDriver | src/main/java/sentinel/utils/WebDriverFactory.java:162-170 | "IE", "OSX" and "Win" normalise to internetexplorer, mac and windows. |
| WebDriverFactory.WhitespaceIgnoredInNames | src/main/java/sentinel/utils/WebDriverFactory.java:162-170 | A whitespace character inside a browser or OS name changes neither normalised name, so "Internet Explorer" selects what "InternetExplorer" selects. |
| PageManager.GetPage | src/main/java/sentinel/pages/PageManager.java:86-101 | Page-not-found iff no page is set. Otherwise the page. |
| PageManager.OpenPage | src/main/java/sentinel/pages/PageManager.java:110-113 | Records the current handle as parent and returns it. A null dereference iff no page is set. |
| PageManager.LastDifferentSpec | src/main/java/sentinel/pages/PageManager.java:218-222 | The chosen handle is none iff every handle is the parent. Otherwise it is a handle other than the parent, with only parent handles after it. |
| PageManager.LastDifferentAt | src/main/java/sentinel/pages/PageManager.java:218-222 | Gives the position of the chosen handle, or the length when none is chosen. Every handle after it is the parent, and the chosen handle is not. |
| PageManager.PickNewHandle | src/main/java/sentinel/pages/PageManager.java:206-222 | The forward loop yields the last handle, in iteration order, that differs from the parent. |
| PageManager.SwitchToNewWindow | src/main/java/sentinel/pages/PageManager.java:205-248 | Null page, then exactly one window, then missing parent are errors in that order. On success, returns the last non-parent handle (null if none). |
| PageManager.SwitchFindsAWindow | src/main/java/sentinel/pages/PageManager.java:205-225 | With the parent set and two or more distinct handles, a non-null handle is picked. |
| PageManager.OpenThenSwitch | src/main/java/sentinel/pages/PageManager.java:110-225 | After `openPage` records the parent, with one other window open (in either order) the switch picks that window. |
| PageManager.SwitchWithNoWindowsReturnsNull | src/main/java/sentinel/pages/PageManager.java:218-224 | With zero handles the switch succeeds and returns null. |
| PageManager.CloseChildWindow | src/main/java/sentinel/pages/PageManager.java:257-261 | Returns the recorded parent handle unchanged. A null dereference iff no page is set. |
| PageManager.OpenThenCloseReturnsToParent | src/main/java/sentinel/pages/PageManager.java:110-261 | Closing a child window after `openPage` returns the handle `openPage` reported. |
| PageManager.GetCurrentUrl | src/main/java/sentinel/pages/PageManager.java:290-308 | Success iff a page is set and it reports a non-null URL, which is returned. A driver failure or null URL gives URL-not-found. No page gives a null dereference. |

## Left out

- Driver construction (`ChromeDriver`, `FirefoxDriver`, `InternetExplorerDriver`, `SafariDriver`, `RemoteWebDriver`, options, `System.setProperty`, Chrome download preferences, `DownloadManager`): foreign library calls. The model returns a `Driver` value naming what would be built.
- `MalformedURLException` from `new URL(...)` on the hub URL: the URL parser is library code.
- `ConfigurationManager` reads: the `browser`, `os` and `saucelabs` properties are a `Config` parameter. The model assumes the two reads of `saucelabs` agree. `ConfigurationParseException`, `ConfigurationMappingException`, `IOException` and `FileNotFoundException` come from reading the configuration file, so they are not modelled.
- `waitForPageLoad`/`isPageLoaded`: a sleep-and-poll loop on the browser's ready state, so timing and external state.
- PageManager navigation, `close`, `quit`, iframe switching and timeout setters: one-line delegations to the driver.
- PageManager `setPage` and the `instance` flag: `setPage` delegates to `PageFactory`, which is not part of this model. The flag only decides whether `getPage` logs.
- PageManager `switchToNewWindow(String index)`: a single `switchTo().window` call delegated to the driver, whose failure is re-thrown as the window error.
- The window switch itself (`switchTo().window`) is a parameter of `SwitchToNewWindow`. What the driver does when asked to switch to a `null` handle or a missing parent is left to it.
- CloseChildWindow: `close()` and the switch back to the parent handle are driver calls. The model always returns the recorded handle, even though the driver may throw when that handle is `null` or its window is closed.
- `getElementInRowThatContains` and `clickElementInRowThatContains`: the XPath is evaluated by the driver.
- `getCells`, `ActionFunctions`, `Checkbox`, `Response`: outside the logic modelled here (reflection, element aliases, HTTP streams).
- Exception classes and messages: errors are datatype variants; message text is not modelled.
- Logging and `printStackTrace`: no effect on results.
- JavaStrings.ToLowerAscii: lower-cases ASCII letters only, not Java's full Unicode `toLowerCase`.
- Live element text: a cached element list keeps the texts it had when fetched. In Java, a later `getText()` on that element reads the live page, or throws `StaleElementReferenceException` once the page has changed. So when two calls see different `Dom` values, the model's cached texts may differ from what the browser would report.
- Cells that are `null`: the model's cell texts are always strings, so the null-cell re-throw paths of the uniqueness and contains checks are not modelled.
- Java `int` width for counts and page numbers: counts never approach 2^31 here, and page numbers are only compared.

=== FILE: java_strings.dfy ===
/** The few `java.lang.String` operations the framework relies on: `contains`,
    `split` with a literal delimiter, `replaceAll("\\s+", "")` and
    `toLowerCase`, on strings modelled as `seq<char>`. */
module JavaStrings {
  import opened Wrappers

  // ---------------------------------------------------------------------------
  // Substring search
  // ---------------------------------------------------------------------------

  /** `needle` occurs in `hay` starting at index `i`. */
  ghost predicate OccursAt(hay: string, needle: string, i: int) {
    0 <= i && i + |needle| <= |hay| && hay[i..i + |needle|] == needle
  }

  /** `hay.contains(needle)`: scan the start positions left to right. */
  predicate Contains(hay: string, needle: string)
    decreases |hay|
  {
    needle <= hay || (|hay| > 0 && Contains(hay[1..], needle))
  }

  /** Dropping the first character shifts every occurrence one place left. */
  lemma OccursShift(hay: string, needle: string)
    requires |hay| > 0
    ensures forall i | 0 <= i :: OccursAt(hay[1..], needle, i) ==> OccursAt(hay, needle, i + 1)
    ensures forall j | 1 <= j :: OccursAt(hay, needle, j) ==> OccursAt(hay[1..], needle, j - 1)
    ensures OccursAt(hay, needle, 0) <==> needle <= hay
  {
    forall i | 0 <= i && OccursAt(hay[1..], needle, i) ensures OccursAt(hay, needle, i + 1) {
      assert hay[1..][i..i + |needle|] == hay[i + 1..i + 1 + |needle|];
    }
    forall j | 1 <= j && OccursAt(hay, needle, j) ensures OccursAt(hay[1..], needle, j - 1) {
      assert hay[1..][j - 1..j - 1 + |needle|] == hay[j..j + |needle|];
    }
  }

  /** `Contains` is exactly "occurs at some position". */
  lemma {:induction false} ContainsIff(hay: string, needle: string)
    ensures Contains(hay, needle) <==> exists i :: OccursAt(hay, needle, i)
    decreases |hay|
  {
    if needle <= hay {
      assert OccursAt(hay, needle, 0);
    } else if |hay| > 0 {
      ContainsIff(hay[1..], needle);
      OccursShift(hay, needle);
      if Contains(hay[1..], needle) {
        var i :| OccursAt(hay[1..], needle, i);
        assert OccursAt(hay, needle, i + 1);
      }
      if exists i :: OccursAt(hay, needle, i) {
        var i :| OccursAt(hay, needle, i);
        assert i != 0;
        assert OccursAt(hay[1..], needle, i - 1);
      }
    }
  }

  /** `s.indexOf(d)`: the first position at which `d` occurs, if any. */
  function IndexOf(s: string, d: string): (r: Option<nat>)
    ensures r.Some? ==> r.value + |d| <= |s|
    decreases |s|
  {
    if d <= s then Some(0)
    else if |s| == 0 then None
    else
      match IndexOf(s[1..], d)
      case None => None
      case Some(i) => Some(i + 1)
  }

  /** `IndexOf` finds the first occurrence, and finds none exactly when there
      is none. */
  lemma {:induction false} IndexOfSpec(s: string, d: string)
    ensures IndexOf(s, d).Some? ==> OccursAt(s, d, IndexOf(s, d).value)
    ensures IndexOf(s, d).Some? ==> forall i | 0 <= i < IndexOf(s, d).value :: !OccursAt(s, d, i)
    ensures IndexOf(s, d).None? <==> forall i :: !OccursAt(s, d, i)
    decreases |s|
  {
    if d <= s {
      assert OccursAt(s, d, 0);
    } else if |s| > 0 {
      IndexOfSpec(s[1..], d);
      OccursShift(s, d);
    }
  }

  /** The text before the first occurrence of `d` does not contain `d`. */
  lemma PrefixBeforeFirst(s: string, d: string, i: nat)
    requires |d| > 0
    requires OccursAt(s, d, i)
    requires forall j | 0 <= j < i :: !OccursAt(s, d, j)
    ensures !Contains(s[..i], d)
  {
    ContainsIff(s[..i], d);
    forall j | OccursAt(s[..i], d, j) ensures false {
      assert s[..i][j..j + |d|] == s[j..j + |d|];
      assert OccursAt(s, d, j);
    }
  }

  // ---------------------------------------------------------------------------
  // Splitting on a literal delimiter
  // ---------------------------------------------------------------------------

  /** The pieces between the left-to-right, non-overlapping occurrences of
      `d` in `s`, empty pieces included. */
  function SplitAll(s: string, d: string): (r: seq<string>)
    requires |d| > 0
    ensures |r| >= 1
    decreases |s|
  {
    var found := IndexOf(s, d);
    if found.None? then [s]
    else [s[..found.value]] + SplitAll(s[found.value + |d|..], d)
  }

  /** No piece contains the delimiter. */
  lemma {:induction false} SplitPiecesAvoidDelimiter(s: string, d: string)
    requires |d| > 0
    ensures forall k | 0 <= k < |SplitAll(s, d)| :: !Contains(SplitAll(s, d)[k], d)
    decreases |s|
  {
    IndexOfSpec(s, d);
    match IndexOf(s, d)
    case None =>
      ContainsIff(s, d);
    case Some(i) =>
      PrefixBeforeFirst(s, d, i);
      var rest := s[i + |d|..];
      SplitPiecesAvoidDelimiter(rest, d);
      SplitAllStep(s, d, i);
      var tail := SplitAll(rest, d);
      assert forall k | 1 <= k < |SplitAll(s, d)| :: SplitAll(s, d)[k] == tail[k - 1];
  }

  /** The pieces joined back together with `d` between neighbours. */
  function JoinWith(pieces: seq<string>, d: string): string
    decreases |pieces|
  {
    if |pieces| == 0 then ""
    else if |pieces| == 1 then pieces[0]
    else pieces[0] + d + JoinWith(pieces[1..], d)
  }

  lemma SplitAllStep(s: string, d: string, i: nat)
    requires |d| > 0 && IndexOf(s, d) == Some(i)
    ensures SplitAll(s, d) == [s[..i]] + SplitAll(s[i + |d|..], d)
  {
  }

  lemma JoinCons(p: string, tail: seq<string>, d: string)
    requires |tail| >= 1
    ensures JoinWith([p] + tail, d) == p + d + JoinWith(tail, d)
  {
    assert ([p] + tail)[1..] == tail;
  }

  lemma Reassemble(s: string, i: nat, n: nat)
    requires i + n <= |s|
    ensures s[..i] + s[i..i + n] + s[i + n..] == s
  {
  }

  /** Splitting loses nothing: joining the pieces with the delimiter gives
      back the original string. */
  lemma {:induction false} SplitJoinRoundTrip(s: string, d: string)
    requires |d| > 0
    ensures JoinWith(SplitAll(s, d), d) == s
    decreases |s|
  {
    IndexOfSpec(s, d);
    match IndexOf(s, d)
    case None =>
    case Some(i) =>
      assert s[i..i + |d|] == d;
      var rest := s[i + |d|..];
      SplitJoinRoundTrip(rest, d);
      var tail := SplitAll(rest, d);
      SplitAllStep(s, d, i);
      JoinCons(s[..i], tail, d);
      Reassemble(s, i, |d|);
  }

  /** A name without ", " followed by ", " has its first ", " right after
      the name: an occurrence cannot straddle the boundary, because ", "
      starts with a comma and does not continue with one. */
  lemma FirstDelimiterAfterName(a: string, rest: string)
    requires !Contains(a, ", ")
    ensures IndexOf(a + ", " + rest, ", ") == Some(|a|)
  {
    var d, s := ", ", a + ", " + rest;
    IndexOfSpec(s, d);
    ContainsIff(a, d);
    assert s[|a|..|a| + 2] == d;
    assert OccursAt(s, d, |a|);
    forall i | 0 <= i < |a| ensures !OccursAt(s, d, i) {
      if i + 2 <= |a| {
        assert s[i..i + 2] == a[i..i + 2];
        assert !OccursAt(a, d, i);
      } else {
        assert s[i + 1] == ',';
      }
    }
  }

  /** Splitting names joined with ", " gives the names back, provided no
      name contains ", ". */
  lemma {:induction false} SplitJoinedNames(names: seq<string>)
    requires |names| >= 1
    requires forall k | 0 <= k < |names| :: !Contains(names[k], ", ")
    ensures SplitAll(JoinWith(names, ", "), ", ") == names
    decreases |names|
  {
    var d := ", ";
    if |names| == 1 {
      IndexOfSpec(names[0], d);
      ContainsIff(names[0], d);
    } else {
      var rest := JoinWith(names[1..], d);
      var s := names[0] + d + rest;
      assert JoinWith(names, d) == s;
      FirstDelimiterAfterName(names[0], rest);
      SplitAllStep(s, d, |names[0]|);
      assert s[..|names[0]|] == names[0];
      assert s[|names[0]| + |d|..] == rest;
      SplitJoinedNames(names[1..]);
      assert names == [names[0]] + names[1..];
    }
  }

  /** Drops the empty strings at the end of `pieces`. */
  function DropTrailingEmpty(pieces: seq<string>): (r: seq<string>)
    ensures r <= pieces
    ensures r == [] || r[|r| - 1] != ""
    ensures forall k | |r| <= k < |pieces| :: pieces[k] == ""
    decreases |pieces|
  {
    if |pieces| == 0 then pieces
    else if pieces[|pieces| - 1] == "" then DropTrailingEmpty(pieces[..|pieces| - 1])
    else pieces
  }

  /** `s.split(d)` for a delimiter with no regular-expression metacharacters:
      if `d` never occurs the result is `[s]` (even for the empty string);
      otherwise the pieces, with trailing empty pieces removed. */
  function JavaSplit(s: string, d: string): (r: seq<string>)
    requires |d| > 0
    ensures (forall i :: !OccursAt(s, d, i)) ==> r == [s]
    ensures r <= SplitAll(s, d)
    ensures (exists i :: OccursAt(s, d, i)) ==> r == [] || r[|r| - 1] != ""
    ensures forall k | |r| <= k < |SplitAll(s, d)| :: SplitAll(s, d)[k] == ""
    ensures forall k | 0 <= k < |r| :: !Contains(r[k], d)
  {
    SplitPiecesAvoidDelimiter(s, d);
    IndexOfSpec(s, d);
    var raw := SplitAll(s, d);
    if |raw| == 1 then raw else DropTrailingEmpty(raw)
  }

  /** `split(", ")` of names joined with ", " gives the names back, provided
      no name contains ", " and, when there are several, the last is not
      empty (a trailing empty piece would be dropped). */
  lemma JavaSplitJoinedNames(names: seq<string>)
    requires |names| >= 1
    requires forall k | 0 <= k < |names| :: !Contains(names[k], ", ")
    requires |names| > 1 ==> names[|names| - 1] != ""
    ensures JavaSplit(JoinWith(names, ", "), ", ") == names
  {
    SplitJoinedNames(names);
  }

  // ---------------------------------------------------------------------------
  // Whitespace removal and lower-casing
  // ---------------------------------------------------------------------------

  /** The characters of the regular-expression class `\s`: space, tab,
      line feed, vertical tab, form feed and carriage return. */
  predicate IsWhitespace(c: char) {
    c == ' ' || c == '\t' || c == '\n' || c == '\U{000B}' || c == '\U{000C}' || c == '\r'
  }

  predicate IsAsciiUpper(c: char) {
    'A' <= c <= 'Z'
  }

  /** `s.replaceAll("\\s+", "")`: deletes every whitespace character. */
  function StripWhitespace(s: string): (r: string)
    ensures |r| <= |s|
    ensures forall i | 0 <= i < |r| :: !IsWhitespace(r[i])
    ensures forall i | 0 <= i < |r| :: r[i] in s
    ensures (forall i | 0 <= i < |s| :: !IsWhitespace(s[i])) ==> r == s
    decreases |s|
  {
    if |s| == 0 then s
    else if IsWhitespace(s[0]) then StripWhitespace(s[1..])
    else [s[0]] + StripWhitespace(s[1..])
  }

  /** A single character survives exactly when it is not whitespace. */
  lemma StripWhitespaceChar(c: char)
    ensures StripWhitespace([c]) == if IsWhitespace(c) then [] else [c]
  {
    assert [c][1..] == [];
  }

  /** Stripping works character by character: the non-whitespace characters
      of both halves are kept, in order. */
  lemma {:induction false} StripWhitespaceAppend(a: string, b: string)
    ensures StripWhitespace(a + b) == StripWhitespace(a) + StripWhitespace(b)
    decreases |a|
  {
    if |a| > 0 {
      assert (a + b)[0] == a[0];
      assert (a + b)[1..] == a[1..] + b;
      StripWhitespaceAppend(a[1..], b);
    } else {
      assert a + b == b;
    }
  }

  function LowerChar(c: char): char {
    if IsAsciiUpper(c) then (c as int + 32) as char else c
  }

  /** `s.toLowerCase()`, restricted to the ASCII letters. */
  function ToLowerAscii(s: string): (r: string)
    ensures |r| == |s|
    ensures forall i | 0 <= i < |r| :: !IsAsciiUpper(r[i])
    ensures forall i | 0 <= i < |s| :: !IsAsciiUpper(s[i]) ==> r[i] == s[i]
    ensures forall i | 0 <= i < |s| :: IsAsciiUpper(s[i]) ==> r[i] as int == s[i] as int + ('a' as int - 'A' as int)
  {
    seq(|s|, i requires 0 <= i < |s| => LowerChar(s[i]))
  }

  /** Whitespace removed, then lower-cased: the normal form the driver
      factory compares browser and OS names in. */
  function Normalize(s: string): (r: string)
    ensures forall i | 0 <= i < |r| :: !IsWhitespace(r[i]) && !IsAsciiUpper(r[i])
  {
    ToLowerAscii(StripWhitespace(s))
  }

  /** A whitespace character anywhere in a name does not change its normal
      form. */
  lemma NormalizeDropsWhitespace(a: string, c: char, b: string)
    requires IsWhitespace(c)
    ensures Normalize(a + [c] + b) == Normalize(a + b)
  {
    assert a + [c] + b == a + ([c] + b);
    StripWhitespaceAppend(a, [c] + b);
    StripWhitespaceAppend([c], b);
    StripWhitespaceChar(c);
    StripWhitespaceAppend(a, b);
    assert [] + StripWhitespace(b) == StripWhitespace(b);
  }

  /** Normalising twice is normalising once. */
  lemma NormalizeIdempotent(s: string)
    ensures Normalize(Normalize(s)) == Normalize(s)
  {
    var n := Normalize(s);
    assert StripWhitespace(n) == n;
    assert ToLowerAscii(n) == n;
  }
}

=== FILE: page_manager.dfy ===
/** The session state of `sentinel.pages.PageManager`: the current page and
    the parent window handle, and the guards of the operations that read
    them. The driver's answers (the current handle, the open handles, the
    page's URL, whether a window switch succeeded) are parameters. */
module PageManager {
  import opened Wrappers

  /** A page object; only whether one is set matters here. */
  datatype Page = Page(name: string)

  /** The static fields `page` and `parentHandle`. */
  datatype Session = Session(page: Option<Page>, parentHandle: Option<string>)

  datatype WindowProblem = OnlyOneWindow | ParentWindowMissing | WindowNotFound

  datatype PageError =
    | NullPointer
    | PageNotFound
    | NoSuchWindow(problem: WindowProblem)
    | UrlNotFound

  /** What the page reported when asked for its URL. */
  datatype UrlReport = Reported(url: Option<string>) | DriverFailed

  /** `getPage`: the current page; a missing page is an error (a missing
      singleton instance is only logged). */
  function GetPage(s: Session): (r: Result<Page, PageError>)
    ensures r.Failure? <==> s.page.None?
    ensures r.Failure? ==> r.error == PageNotFound
    ensures r.Success? ==> s.page == Some(r.value)
  {
    match s.page
    case None => Failure(PageNotFound)
    case Some(p) => Success(p)
  }

  /** `openPage(url)`: navigates the current page's driver and records the
      window handle it reports as the parent. Without a page the driver
      lookup dereferences `null`. */
  function OpenPage(s: Session, currentHandle: string): (r: Result<(Session, string), PageError>)
    ensures r.Failure? <==> s.page.None?
    ensures r.Failure? ==> r.error == NullPointer
    ensures r.Success? ==> r.value.1 == currentHandle
    ensures r.Success? ==> r.value.0.parentHandle == Some(currentHandle) && r.value.0.page == s.page
  {
    if s.page.None? then Failure(NullPointer)
    else Success((s.(parentHandle := Some(currentHandle)), currentHandle))
  }

  // ---------------------------------------------------------------------------
  // Choosing the new window
  // ---------------------------------------------------------------------------

  /** A `Set` of window handles, listed in iteration order. */
  predicate Distinct(handles: seq<string>) {
    forall i, j | 0 <= i < j < |handles| :: handles[i] != handles[j]
  }

  /** The handle the selection picks: the last one, in iteration order,
      that differs from the parent; none if every handle is the parent. */
  function LastDifferent(handles: seq<string>, parent: string): Option<string>
    decreases |handles|
  {
    if |handles| == 0 then None
    else if handles[|handles| - 1] != parent then Some(handles[|handles| - 1])
    else LastDifferent(handles[..|handles| - 1], parent)
  }

  /** `LastDifferent` finds nothing exactly when every handle is the parent;
      otherwise it finds a handle other than the parent that only parent
      handles follow. */
  lemma LastDifferentSpec(handles: seq<string>, parent: string)
    ensures LastDifferent(handles, parent).None? <==> forall i | 0 <= i < |handles| :: handles[i] == parent
    ensures LastDifferent(handles, parent).Some? ==> LastDifferent(handles, parent).value != parent
    ensures LastDifferent(handles, parent).Some? ==> exists k | 0 <= k < |handles| ::
              handles[k] == LastDifferent(handles, parent).value && forall j | k < j < |handles| :: handles[j] == parent
  {
    var k := LastDifferentAt(handles, parent);
    if k < |handles| {
      assert handles[k] == LastDifferent(handles, parent).value;
    }
  }

  /** The position of the handle `LastDifferent` finds, or `|handles|` when
      it finds none: every handle after it is the parent. */
  lemma {:induction false} LastDifferentAt(handles: seq<string>, parent: string) returns (k: nat)
    ensures k <= |handles|
    ensures forall j | k < j < |handles| :: handles[j] == parent
    ensures k == |handles| <==> LastDifferent(handles, parent).None?
    ensures k == |handles| ==> forall i | 0 <= i < |handles| :: handles[i] == parent
    ensures k < |handles| ==> LastDifferent(handles, parent) == Some(handles[k]) && handles[k] != parent
    decreases |handles|
  {
    if |handles| == 0 {
      k := 0;
    } else {
      var n := |handles| - 1;
      if handles[n] != parent {
        k := n;
      } else {
        var init := handles[..n];
        assert forall i | 0 <= i < n :: init[i] == handles[i];
        var k' := LastDifferentAt(init, parent);
        k := if k' == n then |handles| else k';
      }
    }
  }

  /** The `for` loop over the handles: every handle that differs from the
      parent overwrites the one remembered so far. */
  method PickNewHandle(handles: seq<string>, parent: string) returns (newHandle: Option<string>)
    ensures newHandle == LastDifferent(handles, parent)
  {
    newHandle := None;
    for i := 0 to |handles|
      invariant newHandle == LastDifferent(handles[..i], parent)
    {
      assert handles[..i + 1][..i] == handles[..i];
      if handles[i] != parent {
        newHandle := Some(handles[i]);
      }
    }
    assert handles[..|handles|] == handles;
  }

  /** `switchToNewWindow()`, given the open handles and whether the driver
      could switch to the chosen one. A missing page fails at the driver
      lookup; then exactly one open window, then a missing parent, is an
      error. A successful call returns the chosen handle, which is `null`
      when every open handle is the parent. */
  function SwitchToNewWindow(s: Session, handles: seq<string>, switched: bool): (r: Result<Option<string>, PageError>)
    requires Distinct(handles)
    ensures s.page.None? ==> r == Failure(NullPointer)
    ensures s.page.Some? && |handles| == 1 ==> r == Failure(NoSuchWindow(OnlyOneWindow))
    ensures s.page.Some? && |handles| != 1 && s.parentHandle.None? ==>
              r == Failure(NoSuchWindow(ParentWindowMissing))
    ensures r.Success? <==> s.page.Some? && |handles| != 1 && s.parentHandle.Some? && switched
    ensures r.Success? ==> r.value == LastDifferent(handles, s.parentHandle.value)
  {
    if s.page.None? then Failure(NullPointer)
    else if |handles| == 1 then Failure(NoSuchWindow(OnlyOneWindow))
    else if s.parentHandle.None? then Failure(NoSuchWindow(ParentWindowMissing))
    else if !switched then Failure(NoSuchWindow(WindowNotFound))
    else Success(LastDifferent(handles, s.parentHandle.value))
  }

  /** With the parent and at least one other window open, the selection
      picks a window other than the parent. */
  lemma {:induction false} SwitchFindsAWindow(s: Session, handles: seq<string>)
    requires Distinct(handles) && |handles| >= 2
    requires s.page.Some? && s.parentHandle.Some?
    ensures SwitchToNewWindow(s, handles, true).Success?
    ensures SwitchToNewWindow(s, handles, true).value.Some?
  {
    LastDifferentSpec(handles, s.parentHandle.value);
    if handles[0] == s.parentHandle.value {
      assert handles[1] != s.parentHandle.value;
    }
  }

  /** After `openPage` records handle `parent`, opening exactly one more
      window makes the switch pick that window, whichever order the driver
      lists the two handles in. */
  lemma OpenThenSwitch(s: Session, parent: string, child: string, handles: seq<string>)
    requires s.page.Some? && parent != child
    requires handles == [parent, child] || handles == [child, parent]
    ensures OpenPage(s, parent).Success?
    ensures SwitchToNewWindow(OpenPage(s, parent).value.0, handles, true) == Success(Some(child))
  {
    assert handles[..1] == [handles[0]];
    if handles == [child, parent] {
      assert LastDifferent(handles[..1], parent) == Some(child);
    }
  }

  /** With no window open the switch succeeds and returns `null`. */
  lemma SwitchWithNoWindowsReturnsNull(s: Session)
    requires s.page.Some? && s.parentHandle.Some?
    ensures SwitchToNewWindow(s, [], true) == Success(None)
  {
  }

  // ---------------------------------------------------------------------------
  // Closing the child window and reading the URL
  // ---------------------------------------------------------------------------

  /** `closeChildWindow()`: closes the current window, switches back and
      returns the recorded parent handle; the session is not changed. */
  function CloseChildWindow(s: Session): (r: Result<Option<string>, PageError>)
    ensures r.Failure? <==> s.page.None?
    ensures r.Failure? ==> r.error == NullPointer
    ensures r.Success? ==> r.value == s.parentHandle
  {
    if s.page.None? then Failure(NullPointer) else Success(s.parentHandle)
  }

  /** Opening a page and then closing a child window returns the handle
      `openPage` reported. */
  lemma OpenThenCloseReturnsToParent(s: Session, parent: string)
    requires s.page.Some?
    ensures OpenPage(s, parent).Success?
    ensures CloseChildWindow(OpenPage(s, parent).value.0) == Success(Some(parent))
  {
  }

  /** `getCurrentUrl()`: the URL the page reports. A driver failure and a
      `null` URL are both reported as URL-not-found; without a page the call
      dereferences `null`, which the `WebDriverException` handler does not
      catch. */
  function GetCurrentUrl(s: Session, report: UrlReport): (r: Result<string, PageError>)
    ensures r.Success? <==> s.page.Some? && report.Reported? && report.url.Some?
    ensures r.Success? ==> r.value == report.url.value
    ensures r.Failure? ==> (r.error == NullPointer <==> s.page.None?)
    ensures r.Failure? ==> r.error in {NullPointer, UrlNotFound}
  {
    if s.page.None? then Failure(NullPointer)
    else match report
      case DriverFailed => Failure(UrlNotFound)
      case Reported(None) => Failure(UrlNotFound)
      case Reported(Some(u)) => Success(u)
  }
}

=== FILE: table_model.dfy ===
/** The cache behind `sentinel.elements.Table`: header, row and column text
    extracted lazily from the page, the two element lists it was read from,
    and the page-number snapshot store.

    The browser is replaced by a `Dom` value: what `findElements` would hand
    back for the table element. Each Java method becomes a function from the
    table state (and the page) to a `Step`: the state after the call together
    with the value returned or the exception thrown. The state is returned on
    the exception path as well, because the Java code mutates its caches
    before some of its throws and later calls see those mutations. */
module TableModel {
  import opened Wrappers

  /** What the driver reports for the table element: the text of every `<th>`
      element, and every `<tr>` element given as the texts of its `<td>` cells
      (a header row made of `<th>` cells therefore has no `<td>` texts). */
  datatype Dom = Dom(th: seq<string>, tr: seq<seq<string>>)

  /** The exceptions the table code can raise. */
  datatype TableError =
    | IndexOutOfBounds            // List.get or List.remove past the end
    | IllegalArgument(header: string)
    | NoSuchColumn(header: string)
    | NullPointer                 // a map lookup that found nothing was dereferenced

  /** The fields of a `Table` object.
      `headerElements` and `rowElements` are `None` until first queried (Java
      `null`); `headers`, `rows` and `columns` count as "not computed" while
      empty. `stored` holds the page numbers present in the `tables` map: the
      only value ever put there is the live `rows` list itself, so every entry
      is an alias of `rows` and all a page number tells is that it is there. */
  datatype Table = Table(
    headerElements: Option<seq<string>>,
    headers: seq<string>,
    rowElements: Option<seq<seq<string>>>,
    rows: seq<seq<string>>,
    columns: map<string, seq<string>>,
    stored: set<int>)

  /** The table state after a call, and what the call returned or threw. */
  datatype Step<+T> = Step(table: Table, result: Result<T, TableError>)

  function Fail<T>(t: Table, e: TableError): Step<T> {
    Step(t, Failure(e))
  }

  /** A newly constructed table: nothing fetched, nothing stored. */
  const Fresh: Table := Table(None, [], None, [], map[], {})

  /** The snapshot `tables.get(p)` denotes: the live row list if `p` was
      stored, `null` otherwise. */
  function StoredRows(t: Table, p: int): Option<seq<seq<string>>> {
    if p in t.stored then Some(t.rows) else None
  }

  /** The states a table object can reach from `Fresh`: a stored snapshot and
      non-empty rows both imply the row elements have been fetched. */
  ghost predicate Valid(t: Table) {
    && (t.stored != {} ==> t.rowElements.Some?)
    && (t.rows != [] ==> t.rowElements.Some?)
  }

  // ---------------------------------------------------------------------------
  // reset
  // ---------------------------------------------------------------------------

  function ClearList<T>(l: Option<seq<T>>): Option<seq<T>> {
    match l
    case None => None
    case Some(_) => Some([])
  }

  /** `reset()`: empties every cache in place. An element list that was
      fetched becomes an empty list and is not set back to `null`, so it will
      never be queried again. The set of stored page numbers is kept; their
      contents, which alias the live rows, are emptied with them. */
  function Reset(t: Table): (r: Table)
    ensures r.headers == [] && r.rows == [] && r.columns == map[]
    ensures r.headerElements.Some? <==> t.headerElements.Some?
    ensures r.rowElements.Some? <==> t.rowElements.Some?
    ensures r.headerElements.Some? ==> r.headerElements.value == []
    ensures r.rowElements.Some? ==> r.rowElements.value == []
    ensures r.stored == t.stored
    ensures Valid(t) ==> Valid(r)
  {
    t.(headerElements := ClearList(t.headerElements), headers := [],
       rowElements := ClearList(t.rowElements), rows := [], columns := map[])
  }

  // ---------------------------------------------------------------------------
  // Element lists
  // ---------------------------------------------------------------------------

  /** The `<th>` list `getOrCreateHeadersElements` hands back: the cached one
      if it was ever fetched, otherwise a fresh query of the page. */
  function HeaderElementsOf(t: Table, dom: Dom): seq<string> {
    if t.headerElements.Some? then t.headerElements.value else dom.th
  }

  /** The `<tr>` list `getOrCreateRowElements` hands back. */
  function RowElementsOf(t: Table, dom: Dom): seq<seq<string>> {
    if t.rowElements.Some? then t.rowElements.value else dom.tr
  }

  /** `getOrCreateHeadersElements()`: queries the `<th>` elements only while
      the cache is `null`. `findElements` never returns `null`, so the
      fallback to the first row's `<td>` elements is dead code. */
  function GetOrCreateHeadersElements(t: Table, dom: Dom): (r: (Table, seq<string>))
    ensures r.0.headerElements == Some(r.1)
    ensures r.1 == HeaderElementsOf(t, dom)
    ensures r.0 == t.(headerElements := Some(r.1))
    ensures Valid(t) ==> Valid(r.0)
  {
    if t.headerElements.Some? then (t, t.headerElements.value)
    else (t.(headerElements := Some(dom.th)), dom.th)
  }

  /** `tableHeadersExist()`: compares the fetched list with `null`, which it
      never is, so the answer is always yes, even for a table without
      `<th>` cells. */
  function TableHeadersExist(t: Table, dom: Dom): (r: (Table, bool))
    ensures r.1
    ensures r.0.headerElements.Some?
    ensures r.0 == t.(headerElements := Some(HeaderElementsOf(t, dom)))
    ensures Valid(t) ==> Valid(r.0)
  {
    var (t1, els) := GetOrCreateHeadersElements(t, dom);
    (t1, t1.headerElements.Some?)
  }

  /** `getOrCreateRowElements()`: queries the `<tr>` elements only while the
      cache is `null`. */
  function GetOrCreateRowElements(t: Table, dom: Dom): (r: (Table, seq<seq<string>>))
    ensures r.0.rowElements == Some(r.1)
    ensures r.1 == RowElementsOf(t, dom)
    ensures r.0 == t.(rowElements := Some(r.1))
    ensures Valid(t) ==> Valid(r.0)
  {
    if t.rowElements.Some? then (t, t.rowElements.value)
    else (t.(rowElements := Some(dom.tr)), dom.tr)
  }

  // ---------------------------------------------------------------------------
  // Rows and headers
  // ---------------------------------------------------------------------------

  /** `getOrCreateRows()`: while `rows` is empty, removes element 0 of the
      cached `<tr>` list (in place, so the cache shrinks) and appends the cell
      texts of every remaining row. */
  function GetOrCreateRows(t: Table, dom: Dom): (s: Step<seq<seq<string>>>)
    ensures t.rows != [] ==> s == Step(t, Success(t.rows))
    ensures s.result.Success? ==> s.result.value == s.table.rows
    ensures s.result.Failure? ==> s.result.error == IndexOutOfBounds
    ensures t.rows == [] ==> s.table.rowElements.Some?
    ensures t.rows == [] ==> (s.result.Success? <==> |RowElementsOf(t, dom)| > 0)
    ensures t.rows == [] && s.result.Success? ==>
              s.table.rows == RowElementsOf(t, dom)[1..] && s.table.rowElements == Some(s.table.rows)
    ensures t.rows == [] && s.result.Failure? ==> s.table == t.(rowElements := Some([]))
    ensures s.table.headerElements == t.headerElements && s.table.headers == t.headers
    ensures s.table.columns == t.columns && s.table.stored == t.stored
    ensures Valid(t) ==> Valid(s.table)
  {
    if t.rows != [] then Step(t, Success(t.rows))
    else
      var (t1, els) := GetOrCreateRowElements(t, dom);
      if |els| == 0 then Fail(t1, IndexOutOfBounds)
      else
        var data := els[1..];
        var t2 := t1.(rowElements := Some(data), rows := t1.rows + data);
        Step(t2, Success(t2.rows))
  }

  /** `getOrCreateHeaders()`: while `headers` is empty, fills it with the
      `<th>` texts; if there are none, with a copy of the first data row,
      which stays in `rows`. */
  function GetOrCreateHeaders(t: Table, dom: Dom): (s: Step<seq<string>>)
    ensures t.headers != [] ==> s == Step(t, Success(t.headers))
    ensures s.result.Success? ==> s.result.value == s.table.headers
    ensures s.result.Failure? ==> s.result.error == IndexOutOfBounds
    ensures t.headers == [] ==> s.table.headerElements.Some?
    ensures t.headers == [] && HeaderElementsOf(t, dom) != [] ==> s.result == Success(HeaderElementsOf(t, dom))
    ensures t.headers == [] && HeaderElementsOf(t, dom) == [] ==>
              (s.result.Success? <==> t.rows != [] || |RowElementsOf(t, dom)| >= 2)
    ensures t.headers == [] && HeaderElementsOf(t, dom) == [] && s.result.Success? ==>
              |s.table.rows| > 0 && s.result.value == s.table.rows[0]
    ensures t.headers == [] && HeaderElementsOf(t, dom) == [] && t.rows == [] && s.result.Success? ==>
              s.table.rows == RowElementsOf(t, dom)[1..]
    ensures t.headers != [] || HeaderElementsOf(t, dom) != [] || t.rows != [] ==>
              s.table.rows == t.rows && s.table.rowElements == t.rowElements
    ensures t.headers == [] ==> s.table.headerElements == Some(HeaderElementsOf(t, dom))
    ensures t.headers == [] && HeaderElementsOf(t, dom) == [] && t.rows == [] && s.result.Success? ==>
              s.table.rowElements == Some(s.table.rows)
    ensures s.result.Failure? ==> s.table == t.(headerElements := Some([]), rowElements := Some([]))
    ensures s.table.columns == t.columns && s.table.stored == t.stored
    ensures Valid(t) ==> Valid(s.table)
  {
    var t1 :=
      if t.headers == [] then
        var r := GetOrCreateHeadersElements(t, dom);
        assert r.0.headers + r.1 == r.1;
        r.0.(headers := r.0.headers + r.1)
      else t;
    if t1.headers != [] then Step(t1, Success(t1.headers))
    else
      var s := GetOrCreateRows(t1, dom);
      if s.result.Failure? then Fail(s.table, s.result.error)
      else if |s.table.rows| == 0 then Fail(s.table, IndexOutOfBounds)
      else
        var t2 := s.table.(headers := s.table.headers + s.table.rows[0]);
        Step(t2, Success(t2.headers))
  }

  /** The states in which `getOrCreateHeaders` has nothing left to compute:
      the headers are known, or the table has no `<th>` cells and its first
      data row has no cells either. */
  predicate HeadersSettled(t: Table) {
    || t.headers != []
    || (t.headerElements == Some([]) && t.rows != [] && t.rows[0] == [])
  }

  /** A successful `getOrCreateHeaders` leaves the table settled, and from a
      settled table it changes nothing and returns the same list: it is
      idempotent. */
  lemma HeadersIdempotent(t: Table, dom: Dom)
    ensures GetOrCreateHeaders(t, dom).result.Success? ==> HeadersSettled(GetOrCreateHeaders(t, dom).table)
    ensures HeadersSettled(t) ==> GetOrCreateHeaders(t, dom) == Step(t, Success(t.headers))
  {
  }

  /** `getOrCreateRows` keeps a settled table settled. */
  lemma RowsKeepHeadersSettled(t: Table, dom: Dom)
    requires HeadersSettled(t)
    ensures HeadersSettled(GetOrCreateRows(t, dom).table)
  {
  }

  /** A table without `<th>` cells, asked for its headers first: the first
      `<tr>` is dropped as a header row and the first data row becomes the
      header list while also staying the first row of data. */
  lemma ThlessHeadersReuseFirstDataRow(dom: Dom)
    requires dom.th == [] && |dom.tr| >= 2
    ensures GetOrCreateHeaders(Fresh, dom).result == Success(dom.tr[1])
    ensures GetOrCreateHeaders(Fresh, dom).table.rows == dom.tr[1..]
  {
  }

  // ---------------------------------------------------------------------------
  // Rediscovery after reset
  // ---------------------------------------------------------------------------

  /** Once the `<tr>` list has been fetched, a reset followed by
      `getOrCreateRows` always fails: the emptied cache is not re-queried and
      `remove(0)` is applied to an empty list. */
  lemma RediscoveryAfterResetFails(t: Table, dom: Dom)
    requires t.rowElements.Some?
    ensures GetOrCreateRows(Reset(t), dom) == Fail(Reset(t), IndexOutOfBounds)
  {
  }

  /** A table whose page has a single `<tr>` gets empty rows from its first
      `getOrCreateRows`, and the second call, still seeing empty rows,
      fails. */
  lemma SingleRowTableFailsOnSecondCall(dom: Dom)
    requires |dom.tr| == 1
    ensures GetOrCreateRows(Fresh, dom).result == Success([])
    ensures GetOrCreateRows(GetOrCreateRows(Fresh, dom).table, dom).result == Failure(IndexOutOfBounds)
  {
  }

  // ---------------------------------------------------------------------------
  // Counts
  // ---------------------------------------------------------------------------

  /** `getNumberOfRows()`: the size of the cached `<tr>` list minus one. */
  function GetNumberOfRows(t: Table, dom: Dom): (r: (Table, int))
    ensures r.0.rowElements == Some(RowElementsOf(t, dom))
    ensures r.1 + 1 == |RowElementsOf(t, dom)|
    ensures r.0 == t.(rowElements := Some(RowElementsOf(t, dom)))
    ensures Valid(t) ==> Valid(r.0)
  {
    var (t1, els) := GetOrCreateRowElements(t, dom);
    (t1, |els| - 1)
  }

  /** On a fresh table the count is the number of data rows; once
      `getOrCreateRows` has removed the header row from the cached list, the
      same method reports one row fewer than there are. */
  lemma NumberOfRowsUndercountsAfterRows(dom: Dom)
    requires |dom.tr| > 0
    ensures GetNumberOfRows(Fresh, dom).1 == |dom.tr| - 1
    ensures var s := GetOrCreateRows(Fresh, dom);
            GetNumberOfRows(s.table, dom).1 == |s.table.rows| - 1
  {
  }

  /** `getNumberOfColumns()`: the number of headers. */
  function GetNumberOfColumns(t: Table, dom: Dom): (s: Step<int>)
    ensures s.table == GetOrCreateHeaders(t, dom).table
    ensures s.result.Success? <==> GetOrCreateHeaders(t, dom).result.Success?
    ensures s.result.Success? ==> s.result.value == |s.table.headers|
    ensures t.headers == [] && HeaderElementsOf(t, dom) != [] ==>
              s.result == Success(|HeaderElementsOf(t, dom)|)
    ensures Valid(t) ==> Valid(s.table)
  {
    var s := GetOrCreateHeaders(t, dom);
    if s.result.Failure? then Fail(s.table, s.result.error)
    else Step(s.table, Success(|s.result.value|))
  }

  // ---------------------------------------------------------------------------
  // Columns
  // ---------------------------------------------------------------------------

  /** The largest width no greater than `bound` that every row reaches. */
  function CommonWidth(rows: seq<seq<string>>, bound: nat): (w: nat)
    ensures w <= bound
    ensures forall j | 0 <= j < |rows| :: w <= |rows[j]|
    ensures w == bound || exists j | 0 <= j < |rows| :: |rows[j]| == w
    decreases |rows|
  {
    if |rows| == 0 then bound
    else
      var w := CommonWidth(rows[1..], if |rows[0]| < bound then |rows[0]| else bound);
      assert forall j | 1 <= j < |rows| :: rows[j] == rows[1..][j - 1];
      w
  }

  /** The `i`-th cell of every row, in row order. */
  function Column(rows: seq<seq<string>>, i: nat): (c: seq<string>)
    requires forall j | 0 <= j < |rows| :: i < |rows[j]|
  {
    seq(|rows|, j requires 0 <= j < |rows| => rows[j][i])
  }

  /** No header after index `i` and before `k` has the same text. */
  predicate LastBefore(headers: seq<string>, i: nat, k: nat)
    requires i < k <= |headers|
  {
    forall j | i < j < k :: headers[j] != headers[i]
  }

  /** What the column map holds once the first `k` headers have been put. */
  ghost predicate ColumnsFor(headers: seq<string>, rows: seq<seq<string>>, k: nat, m: map<string, seq<string>>)
    requires k <= |headers|
    requires forall j | 0 <= j < |rows| :: k <= |rows[j]|
  {
    && (forall i | 0 <= i < k :: headers[i] in m)
    && (forall h | h in m :: exists i | 0 <= i < k :: headers[i] == h)
    && (forall h | h in m :: |m[h]| == |rows|)
    && (forall i | 0 <= i < k && LastBefore(headers, i, k) :: headers[i] in m && m[headers[i]] == Column(rows, i))
  }

  /** Putting the column of header `k - 1` extends the map for `k - 1`
      headers to the map for `k`. */
  lemma ColumnsPut(headers: seq<string>, rows: seq<seq<string>>, k: nat, m: map<string, seq<string>>)
    requires 0 < k <= |headers|
    requires forall j | 0 <= j < |rows| :: k <= |rows[j]|
    requires ColumnsFor(headers, rows, k - 1, m)
    ensures ColumnsFor(headers, rows, k, m[headers[k - 1] := Column(rows, k - 1)])
  {
    var m' := m[headers[k - 1] := Column(rows, k - 1)];
    PutKeys(headers, k, m, m', Column(rows, k - 1));
    PutSizes(rows, m, m', headers[k - 1], Column(rows, k - 1));
    PutLast(headers, rows, k, m);
  }

  lemma PutKeys<V>(headers: seq<string>, k: nat, m: map<string, V>, m': map<string, V>, v: V)
    requires 0 < k <= |headers|
    requires m' == m[headers[k - 1] := v]
    requires forall i | 0 <= i < k - 1 :: headers[i] in m
    requires forall h | h in m :: exists i | 0 <= i < k - 1 :: headers[i] == h
    ensures forall i | 0 <= i < k :: headers[i] in m'
    ensures forall h | h in m' :: exists i | 0 <= i < k :: headers[i] == h
  {
    forall h | h in m' ensures exists i | 0 <= i < k :: headers[i] == h {
      if h != headers[k - 1] {
        var i :| 0 <= i < k - 1 && headers[i] == h;
        assert headers[i] == h;
      }
    }
  }

  lemma PutSizes(rows: seq<seq<string>>, m: map<string, seq<string>>, m': map<string, seq<string>>, h0: string, c: seq<string>)
    requires m' == m[h0 := c]
    requires |c| == |rows|
    requires forall h | h in m :: |m[h]| == |rows|
    ensures forall h | h in m' :: |m'[h]| == |rows|
  {
  }

  lemma PutLast(headers: seq<string>, rows: seq<seq<string>>, k: nat, m: map<string, seq<string>>)
    requires 0 < k <= |headers|
    requires forall j | 0 <= j < |rows| :: k <= |rows[j]|
    requires forall i | 0 <= i < k - 1 && LastBefore(headers, i, k - 1) :: headers[i] in m && m[headers[i]] == Column(rows, i)
    ensures var m' := m[headers[k - 1] := Column(rows, k - 1)];
            forall i | 0 <= i < k && LastBefore(headers, i, k) :: headers[i] in m' && m'[headers[i]] == Column(rows, i)
  {
    var m' := m[headers[k - 1] := Column(rows, k - 1)];
    forall i | 0 <= i < k && LastBefore(headers, i, k) ensures headers[i] in m' && m'[headers[i]] == Column(rows, i) {
      if i < k - 1 {
        assert headers[k - 1] != headers[i];
        assert LastBefore(headers, i, k - 1);
      }
    }
  }

  /** The column map after the first `k` headers have been put. */
  function ColumnsUpTo(headers: seq<string>, rows: seq<seq<string>>, k: nat): (m: map<string, seq<string>>)
    requires k <= |headers|
    requires forall j | 0 <= j < |rows| :: k <= |rows[j]|
    ensures ColumnsFor(headers, rows, k, m)
    decreases k
  {
    if k == 0 then map[]
    else
      var m := ColumnsUpTo(headers, rows, k - 1);
      ColumnsPut(headers, rows, k, m);
      m[headers[k - 1] := Column(rows, k - 1)]
  }

  /** `getOrCreateColumns()`: while `columns` is empty, computes the rows and
      then the headers, and puts, for the header at index `i`, the `i`-th cell
      of every row; a later header with the same text overwrites an earlier
      one. A row shorter than the header list throws at the first header it
      lacks, after the earlier headers were put. */
  function GetOrCreateColumns(t: Table, dom: Dom): (s: Step<map<string, seq<string>>>)
    ensures t.columns != map[] ==> s == Step(t, Success(t.columns))
    ensures s.result.Success? ==> s.result.value == s.table.columns
    ensures s.result.Failure? ==> s.result.error == IndexOutOfBounds
    ensures s.table.stored == t.stored
    ensures t.columns == map[] && s.result.Success? ==>
              && (forall h :: h in s.table.columns <==> exists i | 0 <= i < |s.table.headers| :: s.table.headers[i] == h)
              && (forall h | h in s.table.columns :: |s.table.columns[h]| == |s.table.rows|)
              && (forall j | 0 <= j < |s.table.rows| :: |s.table.headers| <= |s.table.rows[j]|)
    ensures t.columns == map[] && s.result.Success? ==>
              forall i | 0 <= i < |s.table.headers| && LastBefore(s.table.headers, i, |s.table.headers|) ::
                s.table.columns[s.table.headers[i]] == Column(s.table.rows, i)
    ensures t.columns == map[] ==>
              var s1 := GetOrCreateRows(t, dom);
              var s2 := GetOrCreateHeaders(s1.table, dom);
              && (s1.result.Failure? ==> s == Fail(s1.table, IndexOutOfBounds))
              && (s1.result.Success? && s2.result.Failure? ==> s == Fail(s2.table, IndexOutOfBounds))
              && (s1.result.Success? && s2.result.Success? ==> s.table == s2.table.(columns := s.table.columns))
    ensures Valid(t) ==> Valid(s.table)
  {
    if t.columns != map[] then Step(t, Success(t.columns))
    else
      var s1 := GetOrCreateRows(t, dom);
      if s1.result.Failure? then Fail(s1.table, s1.result.error)
      else
        var s2 := GetOrCreateHeaders(s1.table, dom);
        if s2.result.Failure? then Fail(s2.table, s2.result.error)
        else
          var hs, rows := s2.result.value, s2.table.rows;
          var w := CommonWidth(rows, |hs|);
          var cols := ColumnsUpTo(hs, rows, w);
          var t3 := s2.table.(columns := cols);
          if w < |hs| then Fail(t3, IndexOutOfBounds) else Step(t3, Success(cols))
  }

  /** Building the columns leaves settled headers as they are. */
  lemma ColumnsKeepSettledHeaders(t: Table, dom: Dom)
    requires HeadersSettled(t)
    ensures GetOrCreateColumns(t, dom).table.headers == t.headers
  {
    RowsKeepHeadersSettled(t, dom);
    HeadersIdempotent(GetOrCreateRows(t, dom).table, dom);
  }

  /** Building the columns fails exactly when, once rows and headers are
      known, some row has fewer cells than there are headers. */
  lemma ColumnsFailOnShortRow(t: Table, dom: Dom)
    requires t.columns == map[]
    requires GetOrCreateRows(t, dom).result.Success?
    requires GetOrCreateHeaders(GetOrCreateRows(t, dom).table, dom).result.Success?
    ensures var s2 := GetOrCreateHeaders(GetOrCreateRows(t, dom).table, dom);
            GetOrCreateColumns(t, dom).result.Failure? <==>
              exists j | 0 <= j < |s2.table.rows| :: |s2.table.rows[j]| < |s2.table.headers|
  {
  }

  // ---------------------------------------------------------------------------
  // Snapshots
  // ---------------------------------------------------------------------------

  /** `storeTable(pageNumber)`: resets, recomputes the rows and puts the live
      row list under `pageNumber`. */
  function StoreTable(t: Table, dom: Dom, pageNumber: int): (s: Step<()>)
    ensures s.result.Success? <==> t.rowElements.None? && |dom.tr| > 0
    ensures s.result.Failure? ==> s.result.error == IndexOutOfBounds && s.table.stored == t.stored
    ensures s.result.Success? ==>
              && s.table.stored == t.stored + {pageNumber}
              && StoredRows(s.table, pageNumber) == Some(dom.tr[1..])
    ensures s.table.headers == [] && s.table.columns == map[] && s.table.headerElements == ClearList(t.headerElements)
    ensures s.result.Success? ==> s.table.rows == dom.tr[1..] && s.table.rowElements == Some(dom.tr[1..])
    ensures s.result.Failure? ==> s.table == Reset(t).(rowElements := Some([]))
    ensures Valid(t) ==> Valid(s.table)
  {
    var s := GetOrCreateRows(Reset(t), dom);
    if s.result.Failure? then Fail(s.table, s.result.error)
    else Step(s.table.(stored := s.table.stored + {pageNumber}), Success(()))
  }

  /** `storeTable()`: stores under page 1. */
  function StoreTableDefault(t: Table, dom: Dom): (s: Step<()>)
    ensures s.result.Success? <==> t.rowElements.None? && |dom.tr| > 0
    ensures s.result.Failure? ==> s.result.error == IndexOutOfBounds && s.table.stored == t.stored
    ensures s.result.Success? ==>
              && s.table.stored == t.stored + {1}
              && StoredRows(s.table, 1) == Some(dom.tr[1..])
              && StoredRows(s.table, 1) == Some(s.table.rows)
    ensures s.table.headers == [] && s.table.columns == map[] && s.table.headerElements == ClearList(t.headerElements)
    ensures s.result.Success? ==> s.table.rows == dom.tr[1..] && s.table.rowElements == Some(dom.tr[1..])
    ensures s.result.Failure? ==> s.table == Reset(t).(rowElements := Some([]))
    ensures Valid(t) ==> Valid(s.table)
  {
    StoreTable(t, dom, 1)
  }

  /** `compareWithStoredTable(pageNumber)`: resets, recomputes the rows and
      compares the stored entry with the live list by reference. The answer
      is whether the page number was stored; the cell texts never matter. */
  function CompareWithStoredTable(t: Table, dom: Dom, pageNumber: int): (s: Step<bool>)
    ensures s.result.Success? <==> t.rowElements.None? && |dom.tr| > 0
    ensures s.result.Failure? ==> s.result.error == IndexOutOfBounds
    ensures s.result.Success? ==> s.result.value == (pageNumber in t.stored)
    ensures s.table.stored == t.stored
    ensures s.table.headers == [] && s.table.columns == map[] && s.table.headerElements == ClearList(t.headerElements)
    ensures s.result.Success? ==> s.table.rows == dom.tr[1..] && s.table.rowElements == Some(dom.tr[1..])
    ensures s.result.Failure? ==> s.table == Reset(t).(rowElements := Some([]))
    ensures Valid(t) ==> Valid(s.table)
  {
    var s := GetOrCreateRows(Reset(t), dom);
    if s.result.Failure? then Fail(s.table, s.result.error)
    else Step(s.table, Success(StoredRows(s.table, pageNumber) == Some(s.table.rows)))
  }

  /** After storing, the headers are computed again from the page: a table
      whose `<th>` list had been fetched now holds it emptied, so its
      headers become the first data row. */
  lemma StoreTableRederivesHeaders(t: Table, dom: Dom, p: int)
    requires t.headerElements.Some?
    requires |dom.tr| >= 2
    ensures var s := StoreTable(t, dom, p);
            s.result.Success? ==> GetOrCreateHeaders(s.table, dom).result == Success(dom.tr[1])
  {
  }

  /** A stored snapshot aliases the live rows, so a reset empties it too. */
  lemma ResetEmptiesSnapshots(t: Table, p: int)
    requires p in t.stored
    ensures StoredRows(Reset(t), p) == Some([])
  {
  }

  /** The comparison never reports a match in a reachable state: a stored
      page implies the row elements were fetched, and then the recomputation
      fails. */
  lemma CompareNeverMatches(t: Table, dom: Dom, p: int)
    requires Valid(t)
    ensures CompareWithStoredTable(t, dom, p).result != Success(true)
  {
  }

  /** Storing a page and then comparing against it throws, whatever the page
      shows the second time. */
  lemma StoreThenCompareFails(t: Table, dom: Dom, dom': Dom, p: int)
    requires StoreTable(t, dom, p).result.Success?
    ensures CompareWithStoredTable(StoreTable(t, dom, p).table, dom', p).result == Failure(IndexOutOfBounds)
  {
  }
}

=== FILE: table_queries.dfy ===
/** The verification queries of `sentinel.elements.Table`: column existence,
    "every cell contains", and the substring-based uniqueness checks over one
    column and over row keys built from several columns. */
module TableQueries {
  import opened Wrappers
  import opened JavaStrings
  import opened TableModel

  // ---------------------------------------------------------------------------
  // Scans over lists of strings
  // ---------------------------------------------------------------------------

  /** Some element of `texts` contains `needle`: the early-return loop of
      `verifyColumnExists`. */
  function AnyContains(texts: seq<string>, needle: string): (b: bool)
    ensures b <==> exists i | 0 <= i < |texts| :: Contains(texts[i], needle)
    decreases |texts|
  {
    if |texts| == 0 then false
    else
      assert forall i | 1 <= i < |texts| :: texts[i] == texts[1..][i - 1];
      Contains(texts[0], needle) || AnyContains(texts[1..], needle)
  }

  /** Every element of `texts` contains `needle`: the early-return loop of
      `verifyColumnCellsContain`. */
  function AllContain(texts: seq<string>, needle: string): (b: bool)
    ensures b <==> forall i | 0 <= i < |texts| :: Contains(texts[i], needle)
    decreases |texts|
  {
    if |texts| == 0 then true
    else
      assert forall i | 1 <= i < |texts| :: texts[i] == texts[1..][i - 1];
      Contains(texts[0], needle) && AllContain(texts[1..], needle)
  }

  /** The key at position `j` contains the key at a different position `i`. */
  predicate Collides(keys: seq<string>, i: int, j: int) {
    0 <= i < |keys| && 0 <= j < |keys| && i != j && Contains(keys[j], keys[i])
  }

  /** The uniqueness notion of the table code: no entry is a substring of the
      entry at another position (so two equal entries are a duplicate, and
      so is "1" next to "11"). */
  predicate ContainmentUnique(keys: seq<string>) {
    !exists i, j | 0 <= i < |keys| && 0 <= j < |keys| :: Collides(keys, i, j)
  }

  /** The nested loop of `verifyColumnCellsAreUnique`: for each cell, count
      the cells containing it (itself included) and give up at the second. */
  method ColumnCellsUnique(column: seq<string>) returns (unique: bool)
    ensures unique <==> ContainmentUnique(column)
  {
    for i := 0 to |column|
      invariant forall i', j' | 0 <= i' < i && 0 <= j' < |column| :: !Collides(column, i', j')
    {
      var count := 0;
      for j := 0 to |column|
        invariant count <= 1
        invariant count == 0 <==> forall j' | 0 <= j' < j :: !Contains(column[j'], column[i])
        invariant forall j1, j2 | 0 <= j1 < j2 < j :: !(Contains(column[j1], column[i]) && Contains(column[j2], column[i]))
      {
        if Contains(column[j], column[i]) {
          count := count + 1;
        }
        if count > 1 {
          var j1 :| 0 <= j1 < j && Contains(column[j1], column[i]);
          assert Collides(column, i, j1) || Collides(column, i, j);
          return false;
        }
      }
      assert Contains(column[i], column[i]);
    }
    return true;
  }

  // ---------------------------------------------------------------------------
  // Row keys
  // ---------------------------------------------------------------------------

  /** `getCellsValue(indexes, cells)`: the cells at the given positions
      concatenated without a delimiter, or `None` where `cells.get` would
      throw because a position is past the end of the row. */
  function CellsValue(indexes: seq<nat>, cells: seq<string>): (r: Option<string>)
    ensures r.Some? <==> forall k | 0 <= k < |indexes| :: indexes[k] < |cells|
    decreases |indexes|
  {
    if |indexes| == 0 then Some("")
    else if indexes[0] >= |cells| then None
    else
      assert forall k | 1 <= k < |indexes| :: indexes[k] == indexes[1..][k - 1];
      match CellsValue(indexes[1..], cells)
      case None => None
      case Some(rest) => Some(cells[indexes[0]] + rest)
  }

  /** Keys concatenate: the key over two index lists is the key over the
      first followed by the key over the second. */
  lemma {:induction false} CellsValueAppend(a: seq<nat>, b: seq<nat>, cells: seq<string>)
    requires CellsValue(a, cells).Some? && CellsValue(b, cells).Some?
    ensures CellsValue(a + b, cells) == Some(CellsValue(a, cells).value + CellsValue(b, cells).value)
    decreases |a|
  {
    if |a| == 0 {
      assert a + b == b;
      assert CellsValue(a, cells).value + CellsValue(b, cells).value == CellsValue(b, cells).value;
    } else {
      var ab := a + b;
      assert ab[0] == a[0];
      assert ab[1..] == a[1..] + b;
      CellsValueAppend(a[1..], b, cells);
      var head, va, vb := cells[a[0]], CellsValue(a[1..], cells).value, CellsValue(b, cells).value;
      assert CellsValue(a, cells) == Some(head + va);
      assert CellsValue(ab, cells) == Some(head + (va + vb));
      assert head + (va + vb) == (head + va) + vb;
    }
  }

  /** The key over a single position is that cell's text. */
  lemma CellsValueSingle(i: nat, cells: seq<string>)
    requires i < |cells|
    ensures CellsValue([i], cells) == Some(cells[i])
  {
    assert [i][1..] == [];
    assert cells[i] + "" == cells[i];
  }

  /** The key of every row. */
  function RowKeys(indexes: seq<nat>, rows: seq<seq<string>>): (keys: seq<Option<string>>)
    ensures |keys| == |rows|
    ensures forall r | 0 <= r < |rows| :: keys[r] == CellsValue(indexes, rows[r])
  {
    seq(|rows|, r requires 0 <= r < |rows| => CellsValue(indexes, rows[r]))
  }

  predicate AllDefined(keys: seq<Option<string>>) {
    forall k | 0 <= k < |keys| :: keys[k].Some?
  }

  function Unwrap(keys: seq<Option<string>>): (r: seq<string>)
    requires AllDefined(keys)
    ensures |r| == |keys|
    ensures forall k | 0 <= k < |keys| :: r[k] == keys[k].value
  {
    seq(|keys|, k requires 0 <= k < |keys| => keys[k].value)
  }

  /** The position of the first key that cannot be built. */
  function FirstUndefined(keys: seq<Option<string>>): (m: nat)
    requires !AllDefined(keys)
    ensures m < |keys| && keys[m].None?
    ensures forall k | 0 <= k < m :: keys[k].Some?
    decreases |keys|
  {
    if keys[0].None? then 0
    else
      assert forall k | 1 <= k < |keys| :: keys[k] == keys[1..][k - 1];
      1 + FirstUndefined(keys[1..])
  }

  /** What the nested loop of `verifyRowCellsAreUnique` yields, stated
      without the loop. When every key can be built the answer is
      `ContainmentUnique`. Otherwise the outer loop never passes its first
      row: it throws at the first key that cannot be built, unless before
      that position a second key containing the first key was found. */
  function RowScanOutcome(keys: seq<Option<string>>): Result<bool, TableError> {
    if AllDefined(keys) then Success(ContainmentUnique(Unwrap(keys)))
    else
      var m := FirstUndefined(keys);
      if exists j | 1 <= j < m :: Contains(keys[j].value, keys[0].value) then Success(false)
      else Failure(IndexOutOfBounds)
  }

  /** The nested loop of `verifyRowCellsAreUnique`, building each key as it
      goes exactly as the Java code calls `getCellsValue`. */
  method ScanRowKeys(keys: seq<Option<string>>) returns (r: Result<bool, TableError>)
    ensures r == RowScanOutcome(keys)
  {
    for i := 0 to |keys|
      invariant i > 0 ==> AllDefined(keys)
      invariant i > 0 ==> forall i', j' | 0 <= i' < i && 0 <= j' < |keys| :: !Collides(Unwrap(keys), i', j')
    {
      if keys[i].None? {
        return Failure(IndexOutOfBounds);
      }
      var key := keys[i].value;
      var count := 0;
      for j := 0 to |keys|
        invariant forall j' | 0 <= j' < j :: keys[j'].Some?
        invariant count <= 1
        invariant count == 0 <==> forall j' | 0 <= j' < j :: !Contains(keys[j'].value, key)
        invariant forall j1, j2 | 0 <= j1 < j2 < j :: !(Contains(keys[j1].value, key) && Contains(keys[j2].value, key))
      {
        if keys[j].None? {
          assert Contains(key, key);
          return Failure(IndexOutOfBounds);
        }
        if Contains(keys[j].value, key) {
          count := count + 1;
        }
        if count > 1 {
          var j1 :| 0 <= j1 < j && Contains(keys[j1].value, key);
          if AllDefined(keys) {
            assert Collides(Unwrap(keys), i, j1) || Collides(Unwrap(keys), i, j);
          } else {
            assert FirstUndefined(keys) > j;
          }
          return Success(false);
        }
      }
      assert Contains(key, key);
    }
    return Success(true);
  }

  // ---------------------------------------------------------------------------
  // Header resolution
  // ---------------------------------------------------------------------------

  /** The positions from `from` on whose header equals `name`, ascending. */
  function Positions(headers: seq<string>, name: string, from: nat): (r: seq<nat>)
    requires from <= |headers|
    ensures forall k | 0 <= k < |r| :: from <= r[k] < |headers| && headers[r[k]] == name
    ensures forall i | from <= i < |headers| && headers[i] == name :: i in r
    ensures forall k, l | 0 <= k < l < |r| :: r[k] < r[l]
    decreases |headers| - from
  {
    if from == |headers| then []
    else if headers[from] == name then [from] + Positions(headers, name, from + 1)
    else Positions(headers, name, from + 1)
  }

  // ---------------------------------------------------------------------------
  // Queries on the table
  // ---------------------------------------------------------------------------

  /** `verifyColumnExists(columnName)`: some header contains the name as a
      substring. */
  function VerifyColumnExists(t: Table, dom: Dom, name: string): (s: Step<bool>)
    ensures s.table == GetOrCreateHeaders(t, dom).table
    ensures s.result.Success? <==> GetOrCreateHeaders(t, dom).result.Success?
    ensures s.result.Success? ==>
              (s.result.value <==> exists i | 0 <= i < |s.table.headers| :: Contains(s.table.headers[i], name))
    ensures Valid(t) ==> Valid(s.table)
  {
    var s := GetOrCreateHeaders(t, dom);
    if s.result.Failure? then Fail(s.table, s.result.error)
    else Step(s.table, Success(AnyContains(s.result.value, name)))
  }

  /** `verifyColumnCellsContain(columnHeader, textToMatch)`: the header must
      be an exact key of the column map; then every cell of its column must
      contain the text (vacuously so for an empty column). */
  function VerifyColumnCellsContain(t: Table, dom: Dom, header: string, text: string): (s: Step<bool>)
    ensures s.result.Failure? ==> s.result.error in {IndexOutOfBounds, IllegalArgument(header)}
    ensures var s1 := GetOrCreateHeaders(t, dom);
            var s2 := GetOrCreateColumns(s1.table, dom);
            && (s.result == Failure(IndexOutOfBounds) <==> s1.result.Failure? || s2.result.Failure?)
            && (s.result == Failure(IllegalArgument(header)) <==>
                  s1.result.Success? && s2.result.Success? && header !in s2.table.columns)
    ensures s.result.Failure? && s.result.error == IllegalArgument(header) ==> header !in s.table.columns
    ensures s.result.Success? ==> header in s.table.columns
    ensures s.result.Success? ==>
              (s.result.value <==> forall i | 0 <= i < |s.table.columns[header]| :: Contains(s.table.columns[header][i], text))
    ensures s.table.stored == t.stored
    ensures var s1 := GetOrCreateHeaders(t, dom);
            s.table == if s1.result.Failure? then s1.table else GetOrCreateColumns(s1.table, dom).table
    ensures Valid(t) ==> Valid(s.table)
  {
    var s1 := GetOrCreateHeaders(t, dom);
    if s1.result.Failure? then Fail(s1.table, s1.result.error)
    else
      var s2 := GetOrCreateColumns(s1.table, dom);
      if s2.result.Failure? then Fail(s2.table, s2.result.error)
      else if header !in s2.result.value then Fail(s2.table, IllegalArgument(header))
      else Step(s2.table, Success(AllContain(s2.result.value[header], text)))
  }

  /** Before any column map was built, a call that does not fail on the
      rows or headers succeeds exactly when the header text is one of the
      headers, compared exactly. */
  lemma CellsContainNeedsExactHeader(t: Table, dom: Dom, header: string, text: string)
    requires t.columns == map[]
    ensures var s := VerifyColumnCellsContain(t, dom, header, text);
            s.result != Failure(IndexOutOfBounds) ==>
              (s.result.Success? <==> exists i | 0 <= i < |s.table.headers| :: s.table.headers[i] == header)
  {
  }

  /** `verifyColumnCellsAreUnique(columnHeader)`: throws when no header
      contains the name; dereferences `null` when one only contains it
      without being an exact key of the column map; throws when the column is
      empty; otherwise answers `ContainmentUnique` for the column. */
  function VerifyColumnCellsAreUnique(t: Table, dom: Dom, header: string): (s: Step<bool>)
    ensures s.result.Failure? ==> s.result.error in {IndexOutOfBounds, IllegalArgument(header), NullPointer}
    ensures var e := VerifyColumnExists(t, dom, header);
            var c := GetOrCreateColumns(e.table, dom);
            && (s.result == Failure(IndexOutOfBounds) <==> e.result.Failure? || (e.result == Success(true) && c.result.Failure?))
            && (s.result == Failure(IllegalArgument(header)) <==>
                  || e.result == Success(false)
                  || (e.result == Success(true) && c.result.Success? && header in c.table.columns && |c.table.columns[header]| == 0))
            && (s.result == Failure(NullPointer) <==> e.result == Success(true) && c.result.Success? && header !in c.table.columns)
    ensures s.result.Failure? && s.result.error == NullPointer ==> header !in s.table.columns
    ensures s.result.Success? ==> exists i | 0 <= i < |s.table.headers| :: Contains(s.table.headers[i], header)
    ensures s.result.Success? ==>
              header in s.table.columns && |s.table.columns[header]| > 0
              && s.result.value == ContainmentUnique(s.table.columns[header])
    ensures s.table.stored == t.stored
    ensures var e := VerifyColumnExists(t, dom, header);
            s.table == if e.result == Success(true) then GetOrCreateColumns(e.table, dom).table else e.table
    ensures Valid(t) ==> Valid(s.table)
  {
    var s1 := VerifyColumnExists(t, dom, header);
    HeadersIdempotent(t, dom);
    HeadersIdempotent(s1.table, dom);
    if s1.result.Failure? then Fail(s1.table, s1.result.error)
    else if !s1.result.value then Fail(s1.table, IllegalArgument(header))
    else
      // The headers were computed by the existence check just above, so this
      // second call changes nothing and cannot throw (HeadersIdempotent).
      var s2 := GetOrCreateHeaders(s1.table, dom);
      var s3 := GetOrCreateColumns(s2.table, dom);
      if s3.result.Failure? then Fail(s3.table, s3.result.error)
      else if header !in s3.result.value then Fail(s3.table, NullPointer)
      else
        var column := s3.result.value[header];
        if |column| == 0 then Fail(s3.table, IllegalArgument(header))
        else Step(s3.table, Success(ContainmentUnique(column)))
  }

  /** Before any column map was built, a name that is only part of a header
      passes the existence check and then dereferences `null`: once the
      headers and columns are computed, the outcome is a null dereference
      exactly when some header contains the name but none equals it. */
  lemma PartialHeaderNameDereferencesNull(t: Table, dom: Dom, header: string)
    requires t.columns == map[]
    ensures var s := VerifyColumnCellsAreUnique(t, dom, header);
            s.result != Failure(IndexOutOfBounds) ==>
              (s.result == Failure(NullPointer) <==>
                 && (exists i | 0 <= i < |s.table.headers| :: Contains(s.table.headers[i], header))
                 && (forall i | 0 <= i < |s.table.headers| :: s.table.headers[i] != header))
  {
    var s := VerifyColumnCellsAreUnique(t, dom, header);
    var e := VerifyColumnExists(t, dom, header);
    HeadersIdempotent(t, dom);
    if e.result == Success(true) {
      var c := GetOrCreateColumns(e.table, dom);
      ColumnsKeepSettledHeaders(e.table, dom);
      assert s.table == c.table;
      if c.result.Success? {
        assert header in c.table.columns <==> exists i | 0 <= i < |c.table.headers| :: c.table.headers[i] == header;
      }
    } else if e.result == Success(false) {
      assert s.result == Failure(IllegalArgument(header));
    }
  }

  /** Every position whose header equals one of the names: the positions
      for the first name, then those for the second, and so on. */
  function ExactPositions(headers: seq<string>, names: seq<string>): (r: seq<nat>)
    ensures forall x | x in r :: x < |headers| && headers[x] in names
    ensures forall k, i | 0 <= k < |names| && 0 <= i < |headers| && headers[i] == names[k] :: i in r
    decreases |names|
  {
    if |names| == 0 then []
    else
      assert forall k | 1 <= k < |names| :: names[k] == names[1..][k - 1];
      Positions(headers, names[0], 0) + ExactPositions(headers, names[1..])
  }

  /** The positions for a list of names are those for a first part of it
      followed by those for the rest: name order is kept. */
  lemma {:induction false} ExactPositionsAppend(headers: seq<string>, n1: seq<string>, n2: seq<string>)
    ensures ExactPositions(headers, n1 + n2) == ExactPositions(headers, n1) + ExactPositions(headers, n2)
    decreases |n1|
  {
    if |n1| == 0 {
      assert n1 + n2 == n2;
    } else {
      assert (n1 + n2)[0] == n1[0];
      assert (n1 + n2)[1..] == n1[1..] + n2;
      ExactPositionsAppend(headers, n1[1..], n2);
    }
  }

  /** For a single name the positions are its exact matches, ascending. */
  lemma ExactPositionsSingle(headers: seq<string>, name: string)
    ensures ExactPositions(headers, [name]) == Positions(headers, name, 0)
  {
    assert [name][1..] == [];
    assert Positions(headers, name, 0) + [] == Positions(headers, name, 0);
  }

  /** The positions follow the order of the names, not of the headers. */
  lemma ExactPositionsFollowNameOrder()
    ensures ExactPositions(["A", "B"], ["B", "A"]) == [1, 0]
  {
    ExactPositionsAppend(["A", "B"], ["B"], ["A"]);
    ExactPositionsSingle(["A", "B"], "B");
    ExactPositionsSingle(["A", "B"], "A");
    assert ["B"] + ["A"] == ["B", "A"];
  }

  /** The first name that no header contains, if any. */
  function FirstMissing(headers: seq<string>, names: seq<string>): (r: Option<string>)
    ensures r.None? <==> forall k | 0 <= k < |names| :: AnyContains(headers, names[k])
    ensures r.Some? ==> exists k | 0 <= k < |names| ::
              && names[k] == r.value && !AnyContains(headers, names[k])
              && forall j | 0 <= j < k :: AnyContains(headers, names[j])
    decreases |names|
  {
    if |names| == 0 then None
    else if !AnyContains(headers, names[0]) then Some(names[0])
    else
      assert forall k | 1 <= k < |names| :: names[k] == names[1..][k - 1];
      var r := FirstMissing(headers, names[1..]);
      if r.Some? then
        var k :| 0 <= k < |names[1..]| && names[1..][k] == r.value && !AnyContains(headers, names[1..][k])
                 && forall j | 0 <= j < k :: AnyContains(headers, names[1..][j]);
        assert names[k + 1] == r.value;
        r
      else r
  }

  /** The loop of `verifyRowCellsAreUnique` that checks each requested name
      with `verifyColumnExists` and collects every position whose header
      equals it exactly; `acc` holds the positions collected so far. */
  function ResolveIndexes(t: Table, dom: Dom, names: seq<string>, acc: seq<nat>): Step<seq<nat>>
    decreases |names|
  {
    if |names| == 0 then Step(t, Success(acc))
    else
      var e := VerifyColumnExists(t, dom, names[0]);
      if e.result.Failure? then Fail(e.table, e.result.error)
      else if !e.result.value then Fail(e.table, NoSuchColumn(names[0]))
      else ResolveIndexes(e.table, dom, names[1..], acc + Positions(e.table.headers, names[0], 0))
  }

  /** Once the headers are settled, resolving the names changes nothing and
      either reports the first name no header contains or appends every
      exact-match position of every name, in name order. */
  lemma {:induction false} ResolveIndexesClosedForm(t: Table, dom: Dom, names: seq<string>, acc: seq<nat>)
    requires HeadersSettled(t)
    ensures ResolveIndexes(t, dom, names, acc) ==
              Step(t, match FirstMissing(t.headers, names)
                      case None => Success(acc + ExactPositions(t.headers, names))
                      case Some(n) => Failure(NoSuchColumn(n)))
    decreases |names|
  {
    if |names| > 0 {
      HeadersIdempotent(t, dom);
      assert VerifyColumnExists(t, dom, names[0]) == Step(t, Success(AnyContains(t.headers, names[0])));
      if AnyContains(t.headers, names[0]) {
        var found := Positions(t.headers, names[0], 0);
        ResolveIndexesClosedForm(t, dom, names[1..], acc + found);
        assert FirstMissing(t.headers, names) == FirstMissing(t.headers, names[1..]);
        assert ExactPositions(t.headers, names) == found + ExactPositions(t.headers, names[1..]);
        assert acc + found + ExactPositions(t.headers, names[1..]) == acc + ExactPositions(t.headers, names);
      } else {
        assert FirstMissing(t.headers, names) == Some(names[0]);
      }
    } else {
      assert acc + ExactPositions(t.headers, names) == acc;
    }
  }

  /** The part of `verifyRowCellsAreUnique` after headers and rows are
      computed: resolve the names, then scan the row keys. */
  function ResolveThenScan(t: Table, dom: Dom, names: seq<string>): (s: Step<bool>)
    requires HeadersSettled(t)
    ensures s == Step(t, match FirstMissing(t.headers, names)
                         case Some(n) => Failure(NoSuchColumn(n))
                         case None => RowScanOutcome(RowKeys(ExactPositions(t.headers, names), t.rows)))
  {
    ResolveIndexesClosedForm(t, dom, names, []);
    assert [] + ExactPositions(t.headers, names) == ExactPositions(t.headers, names);
    var s3 := ResolveIndexes(t, dom, names, []);
    if s3.result.Failure? then Fail(s3.table, s3.result.error)
    else Step(s3.table, RowScanOutcome(RowKeys(s3.result.value, s3.table.rows)))
  }

  /** `verifyRowCellsAreUnique(String[] columnsHeader)`: computes headers and
      rows, resolves the names to header positions, and runs the row-key
      scan over the live rows. */
  function VerifyRowCellsAreUnique(t: Table, dom: Dom, names: seq<string>): (s: Step<bool>)
    ensures s.result.Failure? ==> s.result.error == IndexOutOfBounds || s.result.error.NoSuchColumn?
    ensures s.result.Failure? && s.result.error.NoSuchColumn? ==>
              s.result.error.header in names && !AnyContains(s.table.headers, s.result.error.header)
    ensures s.result.Success? ==> forall k | 0 <= k < |names| :: AnyContains(s.table.headers, names[k])
    ensures s.result.Success? ==>
              s.result == RowScanOutcome(RowKeys(ExactPositions(s.table.headers, names), s.table.rows))
    ensures var s1 := GetOrCreateHeaders(t, dom);
            var s2 := GetOrCreateRows(s1.table, dom);
            && (s1.result.Failure? ==> s == Fail(s1.table, IndexOutOfBounds))
            && (s1.result.Success? && s2.result.Failure? ==> s == Fail(s2.table, IndexOutOfBounds))
            && (s1.result.Success? && s2.result.Success? ==>
                  s == Step(s2.table, match FirstMissing(s2.table.headers, names)
                                      case Some(n) => Failure(NoSuchColumn(n))
                                      case None => RowScanOutcome(RowKeys(ExactPositions(s2.table.headers, names), s2.table.rows))))
    ensures s.table.stored == t.stored
    ensures Valid(t) ==> Valid(s.table)
  {
    var s1 := GetOrCreateHeaders(t, dom);
    if s1.result.Failure? then Fail(s1.table, s1.result.error)
    else
      var s2 := GetOrCreateRows(s1.table, dom);
      if s2.result.Failure? then Fail(s2.table, s2.result.error)
      else
        HeadersIdempotent(t, dom);
        RowsKeepHeadersSettled(s1.table, dom);
        ResolveThenScan(s2.table, dom, names)
  }

  /** With every row long enough for every resolved position, the answer is
      exactly `ContainmentUnique` over the row keys. */
  lemma RowCellsUniqueWhenKeysDefined(t: Table, dom: Dom, names: seq<string>)
    ensures var s := VerifyRowCellsAreUnique(t, dom, names);
            var keys := RowKeys(ExactPositions(s.table.headers, names), s.table.rows);
            s.result.Success? && AllDefined(keys) ==> s.result.value == ContainmentUnique(Unwrap(keys))
  {
    var s := VerifyRowCellsAreUnique(t, dom, names);
    var keys := RowKeys(ExactPositions(s.table.headers, names), s.table.rows);
    if s.result.Success? {
      assert s.result == RowScanOutcome(keys);
    }
  }

  /** `verifyRowCellsAreUnique(String columnName)`: splits the argument on
      the literal ", " and checks the resulting names. */
  function VerifyRowCellsAreUniqueDelimited(t: Table, dom: Dom, columnNames: string): (s: Step<bool>)
    ensures s.result.Failure? && s.result.error.NoSuchColumn? ==>
              !Contains(s.result.error.header, ", ") && !AnyContains(s.table.headers, s.result.error.header)
    ensures s.result.Success? ==>
              forall k | 0 <= k < |JavaSplit(columnNames, ", ")| :: AnyContains(s.table.headers, JavaSplit(columnNames, ", ")[k])
    ensures s.result.Success? ==>
              s.result == RowScanOutcome(RowKeys(ExactPositions(s.table.headers, JavaSplit(columnNames, ", ")), s.table.rows))
    ensures var names := JavaSplit(columnNames, ", ");
            var s1 := GetOrCreateHeaders(t, dom);
            var s2 := GetOrCreateRows(s1.table, dom);
            && (s1.result.Failure? ==> s == Fail(s1.table, IndexOutOfBounds))
            && (s1.result.Success? && s2.result.Failure? ==> s == Fail(s2.table, IndexOutOfBounds))
            && (s1.result.Success? && s2.result.Success? ==>
                  s == Step(s2.table, match FirstMissing(s2.table.headers, names)
                                      case Some(n) => Failure(NoSuchColumn(n))
                                      case None => RowScanOutcome(RowKeys(ExactPositions(s2.table.headers, names), s2.table.rows))))
    ensures s.table.stored == t.stored
    ensures Valid(t) ==> Valid(s.table)
  {
    VerifyRowCellsAreUnique(t, dom, JavaSplit(columnNames, ", "))
  }

  /** Names joined with ", " are checked exactly as the array of those
      names, provided no name contains ", " and, when there are several,
      the last is not empty. */
  lemma DelimitedNamesAsArray(t: Table, dom: Dom, names: seq<string>)
    requires |names| >= 1
    requires forall k | 0 <= k < |names| :: !Contains(names[k], ", ")
    requires |names| > 1 ==> names[|names| - 1] != ""
    ensures VerifyRowCellsAreUniqueDelimited(t, dom, JoinWith(names, ", ")) == VerifyRowCellsAreUnique(t, dom, names)
  {
    JavaSplitJoinedNames(names);
  }

  // ---------------------------------------------------------------------------
  // Worked examples
  // ---------------------------------------------------------------------------

  /** Containment, not equality: "1" is a substring of "11", so the column
      ["1", "11", "2"] is reported as not unique. */
  lemma SubstringCountsAsDuplicate()
    ensures !ContainmentUnique(["1", "11", "2"])
  {
    assert Collides(["1", "11", "2"], 0, 1);
  }

  /** Row keys are concatenated without a delimiter: the rows ("Jo", "eLee")
      and ("Joe", "Lee") both give the key "JoeLee". */
  lemma ConcatenatedKeysCollide()
    ensures CellsValue([0, 1], ["Jo", "eLee"]) == CellsValue([0, 1], ["Joe", "Lee"])
  {
    var a, b := ["Jo", "eLee"], ["Joe", "Lee"];
    CellsValueSingle(0, a);
    CellsValueSingle(1, a);
    CellsValueSingle(0, b);
    CellsValueSingle(1, b);
    CellsValueAppend([0], [1], a);
    CellsValueAppend([0], [1], b);
    assert [0] + [1] == [0, 1];
    assert "Jo" + "eLee" == "Joe" + "Lee";
  }
}

=== FILE: web_driver_factory.dfy ===
/** The decision logic of `sentinel.utils.WebDriverFactory`: which driver the
    configured browser and operating system select, the Sauce Labs hub URL,
    and which failures reach the caller. Constructing the driver itself is a
    call into the browser-automation library; it is represented by the
    `Driver` value saying what would be constructed. */
module WebDriverFactory {
  import opened Wrappers
  import opened JavaStrings

  datatype Browser = Chrome | Firefox | InternetExplorer | Safari

  /** What the factory constructs: a remote driver on the Sauce Labs hub, or
      a local driver for a browser, with the driver executable's path when
      one is needed (Safari brings its own). */
  datatype Driver =
    | Remote(hubUrl: string)
    | Local(browser: Browser, driverPath: Option<string>)

  /** The configuration property whose absence is reported. */
  datatype Property = BrowserProperty | OsProperty

  datatype FactoryError =
    | MissingConfiguration(property: Property)
    | InvalidOperatingSystem(os: string)
    | IncompatibleOperatingSystem(os: string, browser: string)
    | InvalidBrowser(browser: string)
    | NullPointer

  /** The configuration properties `browser`, `os` and `saucelabs`. */
  datatype Config = Config(browser: Option<string>, os: Option<string>, saucelabs: Option<string>)

  // ---------------------------------------------------------------------------
  // Names
  // ---------------------------------------------------------------------------

  function BrowserName(b: Browser): string {
    match b
    case Chrome => "chrome"
    case Firefox => "firefox"
    case InternetExplorer => "internetexplorer"
    case Safari => "safari"
  }

  /** The operating-system names the selection recognises. */
  predicate KnownOs(os: string) {
    os == "linux" || os == "mac" || os == "windows"
  }

  /** The browser string compared in the selection: whitespace removed,
      lower-cased, and "ie" spelled out. */
  function NormalizeBrowser(browser: string): (r: string)
    ensures Normalize(browser) == "ie" ==> r == "internetexplorer"
    ensures Normalize(browser) != "ie" ==> r == Normalize(browser)
    ensures forall i | 0 <= i < |r| :: !IsWhitespace(r[i]) && !IsAsciiUpper(r[i])
  {
    var b := Normalize(browser);
    if b == "ie" then "internetexplorer" else b
  }

  /** The OS string compared in the selection: whitespace removed,
      lower-cased, "macintosh" and "osx" mapped to "mac" and "win" to
      "windows"; anything else passes through. */
  function NormalizeOs(os: string): (r: string)
    ensures Normalize(os) in {"macintosh", "osx"} ==> r == "mac"
    ensures Normalize(os) == "win" ==> r == "windows"
    ensures Normalize(os) !in {"macintosh", "osx", "win"} ==> r == Normalize(os)
    ensures forall i | 0 <= i < |r| :: !IsWhitespace(r[i]) && !IsAsciiUpper(r[i])
  {
    var o := Normalize(os);
    if o == "macintosh" || o == "osx" then "mac"
    else if o == "win" then "windows"
    else o
  }

  /** Both normalisations are idempotent: a normalised name is its own
      normal form. */
  lemma NormalizationIdempotent(browser: string, os: string)
    ensures NormalizeBrowser(NormalizeBrowser(browser)) == NormalizeBrowser(browser)
    ensures NormalizeOs(NormalizeOs(os)) == NormalizeOs(os)
  {
    NormalFormFixed(NormalizeBrowser(browser));
    NormalFormFixed(NormalizeOs(os));
  }

  /** A string without whitespace or upper-case letters is its own normal
      form. */
  lemma NormalFormFixed(w: string)
    requires forall i | 0 <= i < |w| :: !IsWhitespace(w[i]) && !IsAsciiUpper(w[i])
    ensures Normalize(w) == w
  {
    assert StripWhitespace(w) == w;
  }

  // ---------------------------------------------------------------------------
  // Selection
  // ---------------------------------------------------------------------------

  /** The supported (browser, OS) pairs. */
  predicate Supported(browser: string, os: string) {
    || ((browser == "chrome" || browser == "firefox") && KnownOs(os))
    || (browser == "internetexplorer" && os == "windows")
    || (browser == "safari" && os == "mac")
  }

  /** The driver executable each browser needs; Safari brings its own. */
  function ExecutableName(b: Browser): Option<string> {
    match b
    case Chrome => Some("chromedriver")
    case Firefox => Some("geckodriver")
    case InternetExplorer => Some("IEDriverServer")
    case Safari => None
  }

  /** The layout of the bundled executables: `drivers/<os>/<name>`, written
      with backslashes and with an `.exe` suffix on Windows. */
  function BundledPath(b: Browser, os: string): Option<string> {
    match ExecutableName(b)
    case None => None
    case Some(name) =>
      if os == "windows" then Some("drivers\\windows\\" + name + ".exe")
      else Some("drivers/" + os + "/" + name)
  }

  /** The bundled Linux and Mac driver paths, spelt out. */
  lemma UnixPathsSpelt()
    ensures BundledPath(Chrome, "linux") == Some("drivers/linux/chromedriver")
    ensures BundledPath(Firefox, "linux") == Some("drivers/linux/geckodriver")
    ensures BundledPath(Chrome, "mac") == Some("drivers/mac/chromedriver")
    ensures BundledPath(Firefox, "mac") == Some("drivers/mac/geckodriver")
  {
    assert "drivers/" + "linux" + "/" + "chromedriver" == "drivers/linux/chromedriver";
    assert "drivers/" + "linux" + "/" + "geckodriver" == "drivers/linux/geckodriver";
    assert "drivers/" + "mac" + "/" + "chromedriver" == "drivers/mac/chromedriver";
    assert "drivers/" + "mac" + "/" + "geckodriver" == "drivers/mac/geckodriver";
  }

  /** The bundled Windows driver paths, spelt out. */
  lemma WindowsPathsSpelt()
    ensures BundledPath(Chrome, "windows") == Some("drivers\\windows\\chromedriver.exe")
    ensures BundledPath(Firefox, "windows") == Some("drivers\\windows\\geckodriver.exe")
    ensures BundledPath(InternetExplorer, "windows") == Some("drivers\\windows\\IEDriverServer.exe")
  {
    assert "drivers\\windows\\" + "chromedriver" + ".exe" == "drivers\\windows\\chromedriver.exe";
    assert "drivers\\windows\\" + "geckodriver" + ".exe" == "drivers\\windows\\geckodriver.exe";
    assert "drivers\\windows\\" + "IEDriverServer" + ".exe" == "drivers\\windows\\IEDriverServer.exe";
  }

  /** The `switch` on the normalised browser and OS: a local driver and its
      executable path, or the exception thrown. */
  function SelectDriver(browser: string, os: string): (r: Result<Driver, FactoryError>)
    ensures r.Success? <==> Supported(browser, os)
    ensures r.Success? ==> r.value.Local? && BrowserName(r.value.browser) == browser
    ensures r.Success? ==> (r.value.driverPath.None? <==> browser == "safari")
    ensures r.Success? ==> r.value.driverPath == BundledPath(r.value.browser, os)
    ensures r.Failure? && r.error.InvalidBrowser? <==>
              browser !in {"chrome", "firefox", "internetexplorer", "safari"}
    ensures r.Failure? && r.error.InvalidOperatingSystem? <==>
              browser in {"chrome", "firefox", "internetexplorer", "safari"} && !KnownOs(os)
    ensures r.Failure? && r.error.IncompatibleOperatingSystem? <==>
              KnownOs(os) && browser in {"internetexplorer", "safari"} && !Supported(browser, os)
  {
    match browser
    case "chrome" =>
      (match os
       case "linux" => UnixPathsSpelt(); Success(Local(Chrome, Some("drivers/linux/chromedriver")))
       case "mac" => UnixPathsSpelt(); Success(Local(Chrome, Some("drivers/mac/chromedriver")))
       case "windows" => WindowsPathsSpelt(); Success(Local(Chrome, Some("drivers\\windows\\chromedriver.exe")))
       case _ => Failure(InvalidOperatingSystem(os)))
    case "firefox" =>
      (match os
       case "linux" => UnixPathsSpelt(); Success(Local(Firefox, Some("drivers/linux/geckodriver")))
       case "mac" => UnixPathsSpelt(); Success(Local(Firefox, Some("drivers/mac/geckodriver")))
       case "windows" => WindowsPathsSpelt(); Success(Local(Firefox, Some("drivers\\windows\\geckodriver.exe")))
       case _ => Failure(InvalidOperatingSystem(os)))
    case "internetexplorer" =>
      (match os
       case "linux" => Failure(IncompatibleOperatingSystem(os, browser))
       case "mac" => Failure(IncompatibleOperatingSystem(os, browser))
       case "windows" => WindowsPathsSpelt(); Success(Local(InternetExplorer, Some("drivers\\windows\\IEDriverServer.exe")))
       case _ => Failure(InvalidOperatingSystem(os)))
    case "safari" =>
      (match os
       case "linux" => Failure(IncompatibleOperatingSystem(os, browser))
       case "windows" => Failure(IncompatibleOperatingSystem(os, browser))
       case "mac" => Success(Local(Safari, None))
       case _ => Failure(InvalidOperatingSystem(os)))
    case _ => Failure(InvalidBrowser(browser))
  }

  // ---------------------------------------------------------------------------
  // Sauce Labs
  // ---------------------------------------------------------------------------

  const HubScheme: string := "https://"
  const HubSuffix: string := "@ondemand.saucelabs.com:443/wd/hub"

  /** The Sauce Labs hub URL for a `user:key` credential. */
  function SauceLabsUrl(credentials: string): (url: string)
    ensures |url| == |HubScheme| + |credentials| + |HubSuffix|
    ensures HubScheme <= url
    ensures url[|HubScheme|..|url| - |HubSuffix|] == credentials
    ensures url[|url| - |HubSuffix|..] == HubSuffix
  {
    HubScheme + credentials + HubSuffix
  }

  /** Reads the credential back out of a hub URL. */
  function HubCredentials(url: string): Option<string> {
    var n, m := |HubScheme|, |HubSuffix|;
    if |url| >= n + m && url[..n] == HubScheme && url[|url| - m..] == HubSuffix then Some(url[n..|url| - m])
    else None
  }

  /** A credential read out of a URL rebuilds that URL. */
  lemma HubCredentialsSound(url: string)
    ensures HubCredentials(url).Some? ==> SauceLabsUrl(HubCredentials(url).value) == url
  {
    if HubCredentials(url).Some? {
      Reassemble(url, |HubScheme|, |url| - |HubScheme| - |HubSuffix|);
    }
  }

  /** The credential is recoverable from the URL, so distinct credentials
      give distinct hub URLs. */
  lemma SauceLabsUrlRoundTrip(credentials: string)
    ensures HubCredentials(SauceLabsUrl(credentials)) == Some(credentials)
  {
  }

  // ---------------------------------------------------------------------------
  // instantiateWebDriver
  // ---------------------------------------------------------------------------

  /** `instantiateWebDriver(browser, operatingSystem)`, given the `saucelabs`
      property and the driver the factory held before the call. With Sauce
      Labs credentials the browser and OS are ignored. Otherwise a `null`
      browser or OS is dereferenced while normalising; a failed selection is
      caught and printed, and the previously held driver is returned. */
  function InstantiateWebDriverFor(browser: Option<string>, os: Option<string>, saucelabs: Option<string>,
                                   previous: Option<Driver>): (r: Result<Option<Driver>, FactoryError>)
    ensures saucelabs.Some? ==> r == Success(Some(Remote(SauceLabsUrl(saucelabs.value))))
    ensures r.Failure? <==> saucelabs.None? && (browser.None? || os.None?)
    ensures r.Failure? ==> r.error == NullPointer
    ensures saucelabs.None? && browser.Some? && os.Some? ==>
              var sel := SelectDriver(NormalizeBrowser(browser.value), NormalizeOs(os.value));
              r == Success(if sel.Success? then Some(sel.value) else previous)
  {
    match saucelabs
    case Some(credentials) => Success(Some(Remote(SauceLabsUrl(credentials))))
    case None =>
      if browser.None? || os.None? then Failure(NullPointer)
      else
        match SelectDriver(NormalizeBrowser(browser.value), NormalizeOs(os.value))
        case Success(driver) => Success(Some(driver))
        case Failure(_) => Success(previous)
  }

  /** `instantiateWebDriver()`: without Sauce Labs credentials, a missing
      browser is reported first and a missing OS second; then the two-argument
      version runs. */
  function InstantiateWebDriver(config: Config, previous: Option<Driver>): (r: Result<Option<Driver>, FactoryError>)
    ensures config.saucelabs.None? && config.browser.None? ==>
              r == Failure(MissingConfiguration(BrowserProperty))
    ensures config.saucelabs.None? && config.browser.Some? && config.os.None? ==>
              r == Failure(MissingConfiguration(OsProperty))
    ensures r.Failure? ==> r.error.MissingConfiguration?
    ensures r.Success? && r.value != previous && r.value.Some? && r.value.value.Local? ==>
              config.saucelabs.None? && Supported(NormalizeBrowser(config.browser.value), NormalizeOs(config.os.value))
    ensures config.saucelabs.Some? ==> r == Success(Some(Remote(SauceLabsUrl(config.saucelabs.value))))
    ensures config.saucelabs.Some? || (config.browser.Some? && config.os.Some?) ==>
              r == InstantiateWebDriverFor(config.browser, config.os, config.saucelabs, previous)
  {
    if config.saucelabs.None? && config.browser.None? then Failure(MissingConfiguration(BrowserProperty))
    else if config.saucelabs.None? && config.os.None? then Failure(MissingConfiguration(OsProperty))
    else InstantiateWebDriverFor(config.browser, config.os, config.saucelabs, previous)
  }

  /** The factory's static state: whether the `instance` flag is set, and
      the driver it holds. */
  datatype Factory = Factory(created: bool, driver: Option<Driver>)

  /** `getWebDriver()`: instantiates from the configuration only while the
      `instance` flag is unset, and returns the held driver. The flag is set
      by the two-argument `instantiateWebDriver` before anything else, so
      only a missing configuration leaves it unset. */
  function GetWebDriver(f: Factory, config: Config): (r: Result<(Factory, Option<Driver>), FactoryError>)
    ensures f.created ==> r == Success((f, f.driver))
    ensures r.Failure? ==> !f.created && r.error.MissingConfiguration?
    ensures r.Success? ==> r.value.0.created && r.value.0.driver == r.value.1
    ensures !f.created ==> (r.Success? <==> InstantiateWebDriver(config, f.driver).Success?)
    ensures !f.created && r.Success? ==> r.value.1 == InstantiateWebDriver(config, f.driver).value
  {
    if f.created then Success((f, f.driver))
    else
      match InstantiateWebDriver(config, f.driver)
      case Failure(e) => Failure(e)
      case Success(d) => Success((Factory(true, d), d))
  }

  /** The driver is decided by the first successful call: later calls
      return it whatever the configuration says by then. */
  lemma DriverDecidedOnce(f: Factory, config: Config, later: Config)
    requires GetWebDriver(f, config).Success?
    ensures var (f1, d) := GetWebDriver(f, config).value;
            GetWebDriver(f1, later) == Success((f1, d))
  {
  }

  /** A first call with an unsupported browser/OS pair leaves the factory
      without a driver for good: `null` now and on every later call. */
  lemma UnsupportedFirstCallKeepsNull(config: Config, later: Config)
    requires config.saucelabs.None? && config.browser.Some? && config.os.Some?
    requires !Supported(NormalizeBrowser(config.browser.value), NormalizeOs(config.os.value))
    ensures GetWebDriver(Factory(false, None), config) == Success((Factory(true, None), None))
    ensures GetWebDriver(Factory(true, None), later) == Success((Factory(true, None), None))
  {
  }

  /** `getWebDriverAndHandleErrors()`: `getWebDriver`, with a missing
      configuration logged and answered with `null`. */
  function GetWebDriverAndHandleErrors(f: Factory, config: Config): (r: (Factory, Option<Driver>))
    ensures GetWebDriver(f, config).Success? ==> r == GetWebDriver(f, config).value
    ensures GetWebDriver(f, config).Failure? ==> r == (f, None)
    ensures !f.created && config.saucelabs.None? && (config.browser.None? || config.os.None?) ==> r == (f, None)
  {
    match GetWebDriver(f, config)
    case Success(v) => v
    case Failure(_) => (f, None)
  }

  /** Selection errors never reach the caller: an unsupported or misspelled
      browser/OS pair leaves the previously held driver in place, which is
      `null` on the first call. */
  lemma SelectionErrorsAreSwallowed(config: Config, previous: Option<Driver>)
    requires config.saucelabs.None? && config.browser.Some? && config.os.Some?
    requires !Supported(NormalizeBrowser(config.browser.value), NormalizeOs(config.os.value))
    ensures InstantiateWebDriver(config, previous) == Success(previous)
  {
  }

  /** Spelling variants select the same driver: "IE" means Internet
      Explorer, "OSX" the Mac and "Win" Windows. */
  lemma AliasesSelectTheSameDriver()
    ensures NormalizeBrowser("IE") == "internetexplorer"
    ensures NormalizeOs("OSX") == "mac"
    ensures NormalizeOs("Win") == "windows"
  {
    LowerWord("IE", "ie");
    LowerWord("OSX", "osx");
    LowerWord("Win", "win");
  }

  /** Whitespace inside a configured name is ignored: "Internet Explorer"
      selects what "InternetExplorer" selects, and "Mac OS" what "MacOS"
      selects. */
  lemma WhitespaceIgnoredInNames(a: string, c: char, b: string)
    requires IsWhitespace(c)
    ensures NormalizeBrowser(a + [c] + b) == NormalizeBrowser(a + b)
    ensures NormalizeOs(a + [c] + b) == NormalizeOs(a + b)
  {
    NormalizeDropsWhitespace(a, c, b);
  }

  /** A word of letters without whitespace normalises to its lower-case
      spelling. */
  lemma LowerWord(w: string, lower: string)
    requires |w| == |lower|
    requires forall i | 0 <= i < |w| :: !IsWhitespace(w[i]) && LowerChar(w[i]) == lower[i]
    ensures Normalize(w) == lower
  {
    assert StripWhitespace(w) == w;
  }
}

=== FILE: wrappers.dfy ===
/** Option and Result, the two ways the model says "no value" (Java's null)
    and "this call threw" (a Java exception). */
module Wrappers {

  /** A possibly absent value: `None` stands for Java's `null`. */
  datatype Option<+T> = None | Some(value: T)

  /** The outcome of a call that either returns a value or throws. */
  datatype Result<+R, +E> = Success(value: R) | Failure(error: E)
}
